=== FILE: README.md ===
# Chat relay: a verified model of the line rules, the client registry and the session loop

The system is a line-based TCP chat server written in Rust. Its async
server (`src/main.rs`) registers every accepted connection as
`Client {n}` in a shared list of `(name, writer)` pairs. Each client
session reads lines. It echoes each one back as `You said: …` and relays it
to every other client as `Client {n} says: …`. A session ends on end of
stream, a read error, an oversized message, the `exit` command, a failed
echo, or the server's shutdown signal, and on every one of these paths it
leaves the list. An operator console broadcasts `Server says: …` to all
clients and prunes the clients whose write failed. Typing `exit` at the
console fires the shutdown signal. The older threaded server
(`src/v3chat.rs`) serves one client at a time with a reader thread and an
operator thread.

The model is sequential and functional:

- `text.dfy` (module `Text`): UTF-8 byte length (what `str::len` counts),
  Rust's `trim` over the full `char::is_whitespace` set, ASCII-case-insensitive
  comparison, the `exit` command, and the three wire formats.
- `identity.dfy` (module `Identity`): `Client {n}` naming from the `usize` counter.
- `registry.dfy` (module `Registry`): the client list as `seq<Entry>`. It
  holds push, exact-match `retain`, the relay recipients, `Vec::remove`, and
  the operator's removal of failed positions in reverse order.
- `session.dfy` (module `Session`): the per-line rule and the `select!` loop
  of `handle_connection`. The loop is a fold over a sequence of events
  (`Line`, `Eof`, `ReadErr`, `Shutdown`). The outcome of the echo write rides
  on each `Line`.
- `operator.dfy` (module `Operator`): `handle_server_input`. The outcome of
  each write is a `HandleId -> bool` oracle per console line.
- `v3chat.dfy` (module `V3Chat`): the reader and operator loops of the
  threaded server, and how its size check differs from the async server's.

Strings are `seq<char>` of Unicode scalar values, as a Rust `String` is.
Byte lengths are computed from each character's UTF-8 width, so the
1024-byte limit is exact. It is not an ASCII approximation.

A few facts about the code shape the model:

- The operator path prunes failed clients by position (`Vec::remove(i)`,
  highest position first), not by name and writer.
- Registration pushes without checking for a duplicate name.
- The operator loop also ends on a console read error, not only at end of
  input or `exit`.
- Broadcasts hold the list's read lock while they write; they do not copy
  a snapshot first. Locks are outside this model.

## Model

| member | source | states |
|---|---|---|
| Text.Utf8Len | src/main.rs:75 | the byte length lies between the number of characters and four times that |
| Text.Utf8LenConcat | src/main.rs:75 | byte length is additive over concatenation |
| Text.AsciiByteLength | src/main.rs:75 | an ASCII string has one byte per character |
| Text.Utf8LenSlices | src/main.rs:72-75 | a prefix or suffix cut from a line is never longer in bytes than the line |
| Text.IsWhitespace | src/main.rs:72 | `char::is_whitespace`, the Unicode White_Space set that `trim` strips; `Text.TrimStart` and `Text.TrimEnd` state how `trim` uses it |
| Text.TrimStart | src/main.rs:72 | the result is a suffix, everything dropped is whitespace, and it does not start with whitespace |
| Text.TrimEnd | src/main.rs:72 | the result is a prefix, everything dropped is whitespace, and it does not end with whitespace |
| Text.Trim | src/main.rs:72 | the trimmed message has no whitespace at either end and is no longer in bytes than the raw line |
| Text.TrimStartAt | src/main.rs:72 | `trim_start` leaves exactly the suffix that starts at the first non-whitespace character |
| Text.TrimEndAt | src/main.rs:72 | `trim_end` leaves exactly the prefix that ends at the last non-whitespace character |
| Text.BlankTrimsToEmpty | src/main.rs:72 | a line of nothing but whitespace trims to the empty message |
| Text.TrimCharacterized | src/main.rs:72 | any cut that leaves only whitespace outside and none at the ends of the piece is exactly `trim` |
| Text.TrimIdempotent | src/main.rs:72 | trimming twice equals trimming once |
| Text.AsciiLower | src/main.rs:82 | only `A`..`Z` change, each moving to its lower-case letter |
| Text.EqIgnoreAsciiCase | src/main.rs:82 | `eq_ignore_ascii_case`: same length and equal after `Text.AsciiLower` at every position |
| Text.IsExit | src/main.rs:82 | the `exit` command ignoring ASCII case; `Text.IsExitIffSpelling` lists exactly the lines it accepts |
| Text.IsExitIffSpelling | src/main.rs:82 | a line is `exit` ignoring ASCII case exactly when it is one of the 16 case spellings of `exit` |
| Text.EchoText | src/main.rs:88 | `You said: {message}` plus a newline; `Text.WireFormatsCarryPayload` recovers the message from it |
| Text.SaysText | src/main.rs:96 | `{name} says: {message}` plus a newline; `Text.WireFormatsCarryPayload` recovers the name and the message from it |
| Text.ServerText | src/main.rs:147 | `Server says: {line}` plus a newline; `Text.WireFormatsCarryPayload` recovers the line from it |
| Text.WireFormatsCarryPayload | src/main.rs:88-147 | the echo (line 88), relay (line 96) and operator (line 147) texts carry the message intact between the fixed prefix and the newline |
| Identity.Decimal | src/main.rs:35 | `format!("{}", n)`: at least one digit, only digits, and no leading zero unless the number is 0 |
| Identity.ClientName | src/main.rs:35 | `Client {id}`; `Identity.ClientNameInjective` shows different ids give different names |
| Identity.DecimalRoundTrip | src/main.rs:35 | the decimal digits in a client name read back as the counter value |
| Identity.ClientNameInjective | src/main.rs:34-35 | different counter values give different client names |
| Identity.Accept | src/main.rs:11-35 | an acceptance is named after the current counter value, and the counter advances by one and wraps at 2^64 |
| Identity.AcceptMany | src/main.rs:11-35 | the k-th acceptance from a counter value is named after that value plus k, taken modulo 2^64 |
| Identity.FirstClientName | src/main.rs:11-35 | the first accepted connection is named `Client 1` |
| Identity.AcceptManyNames | src/main.rs:32-35 | until the counter wraps, the k-th acceptance is `Client {start+k}` and all names differ |
| Registry.SendAll | src/main.rs:98-106 | one write per target, in target order, all with the same text |
| Registry.Filter | src/main.rs:124 | `retain` keeps exactly the entries that pass and no others |
| Registry.FilterCounts | src/main.rs:124 | `retain` keeps every passing entry as often as it occurs and drops the others completely |
| Registry.FilterConcat | src/main.rs:124 | `retain` preserves the relative order of the entries it keeps |
| Registry.FilterKeepsAll | src/main.rs:124 | `retain` changes nothing when every entry passes |
| Registry.Register | src/main.rs:59-60 | registration appends exactly one entry at the end and keeps the earlier entries |
| Registry.Deregister | src/main.rs:122-125 | an entry survives exactly when its name or its writer differs from the session's |
| Registry.DeregisterNoMatch | src/main.rs:124 | deregistration is a no-op when no entry matches both name and writer |
| Registry.DeregisterIdempotent | src/main.rs:124 | deregistering twice equals deregistering once |
| Registry.DeregisterPreservesOrder | src/main.rs:124 | deregistration acts entry by entry, so survivors keep their order |
| Registry.DeregisterUndoesRegister | src/main.rs:59-60 | with a new writer, deregistration after registration restores the list |
| Registry.DeregisterExact | src/main.rs:124 | every entry the session does not own keeps its multiplicity, even one with the same name and another writer |
| Registry.Recipients | src/main.rs:97-101 | the relay goes to exactly the entries whose name differs from the sender's |
| Registry.RecipientsCounts | src/main.rs:97-101 | each other entry gets the relay once per occurrence; the sender's name gets none |
| Registry.RecipientsAreTheOthers | src/main.rs:97-101 | with unique names the relay reaches every entry except the sender's own, in list order |
| Registry.FilterKeepsNamesUnique | src/main.rs:122-125 | removing entries cannot create duplicate names |
| Registry.RegisterKeepsNamesUnique | src/main.rs:59-60 | pushing a fresh name keeps names unique |
| Registry.RemoveAt | src/main.rs:164 | `Vec::remove(i)` keeps positions below i and shifts the rest down by one |
| Registry.KeepPositions | src/main.rs:161-165 | the entries whose positions were not dropped, in order; `Registry.KeepPositionsMembers`, `Registry.KeepPositionsPrefix` and `Registry.KeepPositionsIsFilter` state what survives |
| Registry.KeepPositionsMembers | src/main.rs:161-165 | an entry survives pruning exactly when a position holding it was not dropped |
| Registry.KeepPositionsPrefix | src/main.rs:161-165 | positions below every dropped position are untouched |
| Registry.RemoveBelowDropped | src/main.rs:163-164 | removing position i after higher positions are gone equals dropping i along with them |
| Registry.PositionSet | src/main.rs:149-156 | the set holds exactly the collected positions |
| Registry.RemoveInReverse | src/main.rs:161-166 | removing ascending positions last first drops exactly those positions and shortens the list by their number |
| Registry.KeepPositionsIsFilter | src/main.rs:149-165 | dropping exactly the positions that fail a test equals `retain` by that test |
| Session.Classify | src/main.rs:72-85 | size is judged on the trimmed message, oversize wins over `exit`, and a relayed message is the whole trimmed line, never truncated |
| Session.Step | src/main.rs:68-118 | one pass of the `select!` loop body; its behaviour is stated by `Session.StepShape`, `Session.LineRule` and `Session.NonLineEventsHalt` |
| Session.StepShape | src/main.rs:68-118 | only a line lets the loop go on; whatever a pass writes starts with the echo to the sender; other events write nothing; a pass that writes and ends wrote only the failed echo |
| Session.LineRule | src/main.rs:72-106 | oversize and `exit` end the session with no writes; otherwise the echo comes first, a failed echo ends the session, and the relay goes to exactly the other clients in order and never to the sender |
| Session.RelayStep | src/main.rs:86-106 | a line classified for relaying with a working echo yields the echo followed by the relay to the other clients |
| Session.FanOutExample | src/main.rs:88-106 | with three clients, the sender gets only its echo and the other two each get `Client 1 says: hi` |
| Session.NonLineEventsHalt | src/main.rs:67-118 | end of stream (including an empty read), a read error and shutdown each end the loop with no writes |
| Session.RunLoop | src/main.rs:66-120 | the loop over the `select!` events; an exited loop has consumed at least one and at most all events |
| Session.RunLoopWrites | src/main.rs:66-120 | the loop has written the writes of each pass it ran, in order, up to and including the pass it exited on |
| Session.RunLoopAppendsPass | src/main.rs:66-120 | while the loop waits, one more event adds exactly that pass's writes after everything written so far, and the loop exits then exactly when that pass ends it |
| Session.FoldIgnoresLater | src/main.rs:66-120 | once a pass has halted, passes after it change nothing |
| Session.RunLoopStopsAtFirstHalt | src/main.rs:66-120 | the loop exits at the first ending event, for that event's reason, having written exactly the writes of the passes up to and including it |
| Session.RunLoopWaitsWithoutHalt | src/main.rs:66-120 | without an ending event the loop keeps waiting |
| Session.RunLoopIgnoresLaterEvents | src/main.rs:66-120 | after the loop exits, later events change nothing |
| Session.RunLoopExitsIffSomeHalt | src/main.rs:66-120 | the loop exits exactly when some event ends it |
| Session.RunSession | src/main.rs:56-125 | a session writes what its loop writes; a closed session leaves no entry with its name and writer, and an open one is still listed |
| Session.EveryExitDeregisters | src/main.rs:56-125 | every exit path leads to the one deregistration: a closed session leaves nothing it owns and restores the list, and an open one stays listed |
| Session.ShutdownEndsSession | src/main.rs:115-125 | shutdown closes the session with no further client input and deregisters it |
| Session.RelayToOthers | src/main.rs:95-106 | every other client is tried even after failures, and exactly the writable ones receive the message |
| Operator.WriteToAll | src/main.rs:147-159 | every entry gets `Server says: …`, and the collected failed positions are ascending and are exactly the failed writes |
| Operator.BroadcastLine | src/main.rs:146-166 | after pruning, the list is exactly the clients whose write worked, in their original order |
| Operator.RunOperator | src/main.rs:139-167 | the console loop only ever removes clients: every client left was registered at the start |
| Operator.ShutdownIffExitLine | src/main.rs:139-144 | shutdown fires exactly when an `exit` line arrives before the console ends |
| Operator.ExitLineSendsNothing | src/main.rs:139-144 | an `exit` line fires shutdown, writes nothing to any client and leaves the list as it was, whatever follows it |
| Operator.OperatorIgnoresLaterInput | src/main.rs:139-167 | once the console loop has stopped, later console lines are not sent and do not change the list |
| Operator.DeadPeerPruned | src/main.rs:149-165 | a client whose operator write failed is not written to by the next operator broadcast |
| Operator.OperatorKeepsNamesUnique | src/main.rs:161-165 | operator pruning keeps names unique |
| V3Chat.Classify | src/v3chat.rs:35-47 | size is judged on the raw line with its terminator before trimming, and an echoed message is the whole trimmed line |
| V3Chat.Step | src/v3chat.rs:29-60 | one pass of the reader loop body; its behaviour is stated by `V3Chat.ReaderLineRule` and `V3Chat.EchoedMeansLine` |
| V3Chat.ReaderLineRule | src/v3chat.rs:29-59 | an empty read, end of stream and a read error end the reader; an oversize raw line or a trimmed `exit` ends it with no echo; any other line is echoed trimmed, and a failed echo ends it after that echo alone |
| V3Chat.EchoedMeansLine | src/v3chat.rs:40-54 | only a line lets the reader continue, and its reply is the trimmed line |
| V3Chat.ReadAndJudge | src/v3chat.rs:27-55 | starting from the cleared buffer, a pass judges exactly the line just read |
| V3Chat.RunReader | src/v3chat.rs:26-61 | the reader loop as a fold over read results; `V3Chat.ReaderLoop` shows the buffered loop equals it, and `V3Chat.ReaderEchoesEachLine` and `V3Chat.ReaderStopsAtFinish` state what it sends |
| V3Chat.ReaderLoop | src/v3chat.rs:24-61 | because the buffer is cleared before each read, each pass judges only the latest line, so the loop matches the line-by-line fold |
| V3Chat.ReaderEchoesEachLine | src/v3chat.rs:46-54 | while lines are echoed, the client gets one `You said:` reply per line, trimmed, in order |
| V3Chat.ReaderStopsAtFinish | src/v3chat.rs:26-61 | the reader ends at the first finishing event (which events finish is given by `V3Chat.ReaderLineRule`), for its cause; before it, the client got one trimmed `You said:` reply per earlier line, in order, and then only the failed echo, if any |
| V3Chat.RawCheckIsStricter | src/v3chat.rs:35 | every line the async server drops as too long is also dropped here |
| V3Chat.SameVerdictWithinLimit | src/v3chat.rs:35-44 | a line of at most 1024 raw bytes, terminator and padding included, is judged alike by both servers: neither rejects it as too long, both take it as `exit` or neither does, and this reader echoes the message the async server relays |
| V3Chat.VerdictsDifferExactly | src/v3chat.rs:35-40 | the two size checks disagree exactly when the trimmed message fits the limit and the raw line does not |
| V3Chat.TerminatorCountsHere | src/v3chat.rs:35-38 | a 1024-byte message sent with its newline is relayed by the async server but disconnects the client here |
| V3Chat.TerminatorCountsHereExample | src/v3chat.rs:35-38 | such a message exists: 1024 `a`s |
| V3Chat.OperatorRule | src/v3chat.rs:69-82 | one console line of the operator thread; its behaviour is stated by `V3Chat.OperatorLineRule` and `V3Chat.OperatorDoesNotTrim` |
| V3Chat.RunOperator | src/v3chat.rs:68-83 | while the operator thread runs it sends one line per console line; `V3Chat.OperatorStopsAtQuit` states how it quits |
| V3Chat.OperatorStopsAtQuit | src/v3chat.rs:68-83 | the operator thread quits at its first quitting input, for that input's cause, having sent every earlier line in order and then at most the line whose write failed |
| V3Chat.OperatorLineRule | src/v3chat.rs:66-82 | `exit` ends the operator thread unsent, other lines are sent as typed, and a failed write, end of input or a read-error panic ends it |
| V3Chat.OperatorDoesNotTrim | src/v3chat.rs:68-70 | ` exit` with a leading space is sent to the client, not taken as the exit command |
| V3Chat.OperatorForwardsEachLine | src/v3chat.rs:68-82 | while lines are forwarded, the client gets one `Server says:` line per console line, untrimmed, in order |
| V3Chat.OperatorIgnoresLaterInput | src/v3chat.rs:68-83 | after the operator thread quits, later console lines are not sent |

## Left out

- Concurrency: `tokio::select!`, task spawning, the `RwLock` around the list, the per-writer `Mutex`, and thread spawn and join in the threaded server. Each operation is modelled as one critical section. That hides a deadlock the code allows: a session holds its own writer's lock from the echo (line 89) until the end of the line's handling (line 107), and meanwhile it locks every other client's writer for the relay (line 102). Two sessions relaying to each other at the same moment can each wait for the writer lock the other holds. A sequential model cannot show this.
- Other sessions' concurrent registrations and departures while a session runs. A session's loop sees the list as it was right after its own registration.
- The stale-index race between the operator's writing pass under the read lock and its removal pass under a later write lock. `Registry.RemoveInReverse` requires the positions to be ascending and in range, and `Operator.BroadcastLine` uses the list from the writing pass for the removal. If the list changed in between, `Vec::remove` could remove the wrong client or panic.
- Session.RelayToOthers: the session loop itself does not consult relay write outcomes, because the code only logs them. The method states what a failed relay write does not change.
- Identity.Accept: `usize` is taken to be 64 bits wide, as on the usual server targets. On a 32-bit target the counter would wrap at 2^32 instead.
- Identity.AcceptMany: names are taken modulo 2^64 for the same reason; a 32-bit target would wrap at 2^32.
- The byte-level form of `eq_ignore_ascii_case`: it is compared per character. Every byte of a multi-byte UTF-8 character is at least 0x80, so against the ASCII word `exit` both comparisons agree. This is not proved.
- Line framing: a `Line` event carries what one `read_line` call returned. Console lines arrive with their terminator already stripped by `lines()` / `next_line()`. A read of invalid UTF-8 is one of the read errors.
- The async server's line buffer: it is empty at every read, because line 73 clears it on the only path that loops again. Its lines are therefore modelled directly. The threaded server's buffer is modelled explicitly in `V3Chat.ReaderLoop`.
- TCP and console I/O, the accept loops, the shutdown channel's capacity and send errors, logging, and `timestamp()`. These are I/O or clock reads with no decisions of their own.
- `src/v1chat.rs` and `src/v2(clientonly).rs`: earlier single-client echo servers with no client list and no relay. `v1chat.rs` echoes one read per connection. `v2(clientonly).rs` loops over 512-byte reads, trims each one, ends the connection on `exit` ignoring ASCII case, and echoes the trimmed text without a newline.

=== FILE: identity.dfy ===
/**
 Client naming in the accept loop: every accepted connection takes the next
 value of a process-wide counter (an `AtomicUsize` starting at 1, advanced
 by `fetch_add`) and is called `Client {id}`. The name is both what other
 clients see and the key the session uses to leave the registry.
 */
module Identity {

  /** `usize` on a 64-bit target wraps at 2^64. */
  const UsizeModulus: nat := 0x1_0000_0000_0000_0000

  /** The counter's starting value. */
  const FirstId: nat := 1

  type Usize = x: nat | x < UsizeModulus

  function DigitChar(d: nat): (c: char)
    requires d < 10
    ensures '0' <= c <= '9' && (c as int) - ('0' as int) == d
  {
    (d + '0' as int) as char
  }

  /** Decimal representation of `n`, as `format!("{}", n)` writes it. */
  function Decimal(n: nat): (s: string)
    ensures |s| >= 1
    ensures forall k :: 0 <= k < |s| ==> '0' <= s[k] <= '9'
    ensures s[0] == '0' ==> n == 0
    decreases n
  {
    if n < 10 then [DigitChar(n)] else Decimal(n / 10) + [DigitChar(n % 10)]
  }

  /** Reads a string of decimal digits back into a number. */
  function ParseDecimal(s: string): nat
    requires forall k :: 0 <= k < |s| ==> '0' <= s[k] <= '9'
  {
    if |s| == 0 then 0
    else ParseDecimal(s[..|s| - 1]) * 10 + ((s[|s| - 1] as int) - ('0' as int))
  }

  /** Writing a number in decimal and reading it back gives the number. */
  lemma {:induction false} DecimalRoundTrip(n: nat)
    ensures ParseDecimal(Decimal(n)) == n
    decreases n
  {
    if n >= 10 {
      var s := Decimal(n);
      assert s[..|s| - 1] == Decimal(n / 10);
      DecimalRoundTrip(n / 10);
    }
  }

  /** The display name of connection number `id` (`format!("Client {}", id)`). */
  function ClientName(id: nat): string {
    "Client " + Decimal(id)
  }

  /** Different counter values give different names. */
  lemma ClientNameInjective(a: nat, b: nat)
    requires ClientName(a) == ClientName(b)
    ensures a == b
  {
    var prefix := "Client ";
    assert Decimal(a) == ClientName(a)[|prefix|..];
    assert Decimal(b) == ClientName(b)[|prefix|..];
    DecimalRoundTrip(a);
    DecimalRoundTrip(b);
  }

  /**
   One acceptance: `fetch_add(1)` hands out the current counter value and
   advances the counter, wrapping at 2^64.
   */
  function Accept(counter: Usize): (r: (string, Usize))
    ensures r.0 == ClientName(counter)
    ensures counter + 1 < UsizeModulus ==> r.1 == counter + 1
    ensures counter + 1 == UsizeModulus ==> r.1 == 0
  {
    (ClientName(counter), (counter + 1) % UsizeModulus)
  }

  /**
   The names handed out by `n` acceptances from counter value `counter`:
   the k-th is named after `counter + k`, taken modulo 2^64.
   */
  function AcceptMany(counter: Usize, n: nat): (names: seq<string>)
    ensures |names| == n
    ensures forall k :: 0 <= k < n ==> names[k] == ClientName((counter + k) % UsizeModulus)
    decreases n
  {
    if n == 0 then [] else
      var (name, next) := Accept(counter);
      var rest := AcceptMany(next, n - 1);
      forall j | 0 <= j < n - 1
        ensures rest[j] == ClientName((counter + (j + 1)) % UsizeModulus)
      {
        AdvanceThenCount(counter, j + 1);
      }
      [name] + rest
  }

  /** Advancing the counter once and then counting `k - 1` more is counting `k`. */
  lemma AdvanceThenCount(counter: Usize, k: nat)
    requires 1 <= k
    ensures ((counter + 1) % UsizeModulus + (k - 1)) % UsizeModulus == (counter + k) % UsizeModulus
  {
    if counter + 1 == UsizeModulus {
      assert counter + k == (k - 1) + UsizeModulus;
    }
  }

  /** The first connection the server accepts is called `Client 1`. */
  lemma FirstClientName()
    ensures AcceptMany(FirstId, 1) == ["Client 1"]
  {
    var names := AcceptMany(FirstId, 1);
    assert names[0] == ClientName(1);
    assert Decimal(1) == "1";
    assert ClientName(1) == "Client 1";
  }

  /**
   As long as the counter does not wrap, the names handed out are pairwise
   different: the k-th acceptance is named after `counter + k`.
   */
  lemma {:induction false} AcceptManyNames(counter: Usize, n: nat)
    requires counter + n <= UsizeModulus
    ensures forall k :: 0 <= k < n ==> AcceptMany(counter, n)[k] == ClientName(counter + k)
    ensures forall k, l :: 0 <= k < l < n ==> AcceptMany(counter, n)[k] != AcceptMany(counter, n)[l]
    decreases n
  {
    if n > 0 {
      var names := AcceptMany(counter, n);
      if n > 1 {
        AcceptManyNames(counter + 1, n - 1);
        assert names == [ClientName(counter)] + AcceptMany(counter + 1, n - 1);
      }
      assert forall k :: 0 <= k < n ==> names[k] == ClientName(counter + k);
      forall k, l | 0 <= k < l < n ensures names[k] != names[l] {
        if names[k] == names[l] {
          ClientNameInjective(counter + k, counter + l);
        }
      }
    }
  }
}

=== FILE: operator.dfy ===
/**
 The operator console of the async server (`handle_server_input`): each
 console line is either `exit`, which fires the shutdown signal and ends
 the console loop, or a message written as `Server says: {line}` to every
 registered client. Clients whose write failed are then removed by
 position, highest position first.

 The outcome of each write is an oracle: `writable(h)` tells whether a
 write to writer `h` succeeds during that line's pass. The registry is not
 changed by anyone else between the writing pass and the pruning pass.
 */
module Operator {
  import opened Text
  import opened Registry

  datatype ConsoleInput =
    | Typed(line: string, writable: HandleId -> bool)  // `next_line` returned a line, terminator stripped
    | ConsoleEnd                                        // `next_line` returned `Ok(None)` or an error

  /** Whether a registered client's write went through. */
  function WriteWorked(writable: HandleId -> bool): Entry -> bool {
    (e: Entry) => writable(e.handle)
  }

  /**
   The writing pass over a non-exit console line: write `Server says: {line}`
   to every entry (nobody is skipped) and collect, in ascending order, the
   positions whose write failed; a failure does not stop the pass.
   */
  method WriteToAll(reg: Registry, line: string, writable: HandleId -> bool)
    returns (sent: seq<Write>, failed: seq<nat>)
    ensures sent == SendAll(reg, ServerText(line))
    ensures StrictlyAscending(failed)
    ensures forall k :: 0 <= k < |failed| ==> failed[k] < |reg|
    ensures forall p: nat :: p in failed <==> (p < |reg| && !writable(reg[p].handle))
  {
    var text := ServerText(line);
    sent, failed := [], [];
    var i := 0;
    while i < |reg|
      invariant 0 <= i <= |reg|
      invariant sent == SendAll(reg[..i], text)
      invariant StrictlyAscending(failed)
      invariant forall k :: 0 <= k < |failed| ==> failed[k] < i
      invariant forall p: nat :: p in failed <==> (p < i && !writable(reg[p].handle))
    {
      sent := sent + [Write(reg[i], text)];
      if !writable(reg[i].handle) {
        failed := failed + [i];
      }
      i := i + 1;
    }
    assert reg[..i] == reg;
  }

  /**
   One non-exit console line: the writing pass, then, if any write failed,
   the removal of the failed positions last first. The registry that
   results holds exactly the clients whose write worked, in their original
   order.
   */
  method BroadcastLine(reg: Registry, line: string, writable: HandleId -> bool)
    returns (sent: seq<Write>, r: Registry)
    requires !IsExit(line)
    ensures sent == SendAll(reg, ServerText(line))
    ensures r == Filter(reg, WriteWorked(writable))
    ensures forall k :: 0 <= k < |r| ==> writable(r[k].handle)
  {
    var failed;
    sent, failed := WriteToAll(reg, line, writable);
    var keep := WriteWorked(writable);
    var dropped := PositionSet(failed);
    forall k | 0 <= k < |reg| ensures k in dropped <==> !keep(reg[k]) {
      assert k in dropped <==> k in failed;
    }
    KeepPositionsIsFilter(reg, keep, dropped, |reg|);
    assert reg[..|reg|] == reg;
    if |failed| > 0 {
      r := RemoveInReverse(reg, failed);
    } else {
      r := reg;
      KeepPositionsPrefix(reg, {}, |reg|);
      assert dropped == {};
    }
    forall k | 0 <= k < |r| ensures writable(r[k].handle) {
      assert r[k] in r;
      assert keep(r[k]);
    }
  }

  /** How the console task stands after the inputs it was given. */
  datatype OperatorOutcome =
    | Stopped(shutdown: bool, sent: seq<Write>, registry: Registry)
    | Reading(sent: seq<Write>, registry: Registry)  // still waiting for the next console line

  /**
   The console loop as a fold over its inputs. It only ever removes
   clients: every client left at the end was registered at the start.
   */
  function RunOperator(reg: Registry, inputs: seq<ConsoleInput>): (o: OperatorOutcome)
    ensures |o.registry| <= |reg|
    ensures forall e :: e in o.registry ==> e in reg
    decreases |inputs|
  {
    if |inputs| == 0 then Reading([], reg)
    else
      match inputs[0]
      case ConsoleEnd => Stopped(false, [], reg)
      case Typed(line, writable) =>
        if IsExit(line) then Stopped(true, [], reg)
        else
          var sent := SendAll(reg, ServerText(line));
          match RunOperator(Filter(reg, WriteWorked(writable)), inputs[1..])
          case Stopped(fired, sent', reg') => Stopped(fired, sent + sent', reg')
          case Reading(sent', reg') => Reading(sent + sent', reg')
  }

  predicate IsExitInput(i: ConsoleInput) {
    i.Typed? && IsExit(i.line)
  }

  /** Input `k` is an `exit` line and every input before it an ordinary line. */
  predicate FirstExitAt(inputs: seq<ConsoleInput>, k: nat) {
    && k < |inputs|
    && IsExitInput(inputs[k])
    && forall j :: 0 <= j < k ==> inputs[j].Typed? && !IsExitInput(inputs[j])
  }

  /**
   The shutdown signal is fired exactly when an `exit` line arrives before
   the console closes. What is sent after it is settled by
   `ExitLineSendsNothing` and `OperatorIgnoresLaterInput`.
   */
  lemma {:induction false} ShutdownIffExitLine(reg: Registry, inputs: seq<ConsoleInput>)
    ensures var o := RunOperator(reg, inputs);
      (o.Stopped? && o.shutdown) <==> exists k: nat :: FirstExitAt(inputs, k)
    decreases |inputs|
  {
    if |inputs| > 0 {
      var rest := inputs[1..];
      match inputs[0]
      case ConsoleEnd =>
      case Typed(line, writable) =>
        if !IsExit(line) {
          var next := Filter(reg, WriteWorked(writable));
          ShutdownIffExitLine(next, rest);
          var o, o' := RunOperator(reg, inputs), RunOperator(next, rest);
          assert o.Stopped? == o'.Stopped? && (o.Stopped? ==> o.shutdown == o'.shutdown);
          if k: nat :| FirstExitAt(rest, k) {
            assert FirstExitAt(inputs, k + 1) by {
              assert inputs[k + 1] == rest[k];
              forall j | 0 <= j < k + 1 ensures inputs[j].Typed? && !IsExitInput(inputs[j]) {
                if j > 0 { assert inputs[j] == rest[j - 1]; }
              }
            }
          }
          if k: nat :| FirstExitAt(inputs, k) {
            assert k != 0 by { assert inputs[0] == Typed(line, writable); }
            assert FirstExitAt(rest, k - 1) by {
              assert rest[k - 1] == inputs[k];
              forall j | 0 <= j < k - 1 ensures rest[j].Typed? && !IsExitInput(rest[j]) {
                assert rest[j] == inputs[j + 1];
              }
            }
          }
        } else {
          assert FirstExitAt(inputs, 0);
        }
    }
  }

  /**
   An `exit` line at the console fires the shutdown signal, writes nothing
   to any client and leaves the list as it was, whatever follows it.
   */
  lemma ExitLineSendsNothing(reg: Registry, line: string, w: HandleId -> bool, more: seq<ConsoleInput>)
    requires IsExit(line)
    ensures RunOperator(reg, [Typed(line, w)] + more) == Stopped(true, [], reg)
  {
    assert ([Typed(line, w)] + more)[0] == Typed(line, w);
  }

  /**
   Once the console loop has stopped, whether on `exit` or at the end of
   the console input, later console lines are neither sent nor change the
   list.
   */
  lemma {:induction false} OperatorIgnoresLaterInput(reg: Registry, inputs: seq<ConsoleInput>, more: seq<ConsoleInput>)
    requires RunOperator(reg, inputs).Stopped?
    ensures RunOperator(reg, inputs + more) == RunOperator(reg, inputs)
    decreases |inputs|
  {
    assert |inputs| > 0;
    var all := inputs + more;
    assert all[0] == inputs[0];
    if inputs[0].Typed? && !IsExit(inputs[0].line) {
      var next := Filter(reg, WriteWorked(inputs[0].writable));
      OperatorIgnoresLaterInput(next, inputs[1..], more);
      assert all[1..] == inputs[1..] + more;
    }
  }

  /**
   A client whose write failed during one operator broadcast is not written
   to by the next one.
   */
  lemma DeadPeerPruned(reg: Registry, l1: string, w1: HandleId -> bool, l2: string, w2: HandleId -> bool, dead: HandleId)
    requires !IsExit(l1) && !IsExit(l2)
    requires !w1(dead)
    ensures var o := RunOperator(reg, [Typed(l1, w1), Typed(l2, w2)]);
      && o.Reading?
      && |o.sent| >= |reg|
      && forall k :: |reg| <= k < |o.sent| ==> o.sent[k].to.handle != dead
  {
    var inputs := [Typed(l1, w1), Typed(l2, w2)];
    assert inputs[1..] == [Typed(l2, w2)];
    assert inputs[1..][1..] == [];
    var next := Filter(reg, WriteWorked(w1));
    var last := RunOperator(next, [Typed(l2, w2)]);
    assert [Typed(l2, w2)][1..] == [];
    var final := Filter(next, WriteWorked(w2));
    assert RunOperator(final, []) == Reading([], final);
    assert last == Reading(SendAll(next, ServerText(l2)) + [], Filter(next, WriteWorked(w2)));
    var o := RunOperator(reg, inputs);
    assert o.sent == SendAll(reg, ServerText(l1)) + SendAll(next, ServerText(l2));
    forall k | |reg| <= k < |o.sent| ensures o.sent[k].to.handle != dead {
      assert o.sent[k].to == next[k - |reg|];
      assert next[k - |reg|] in next;
    }
  }

  /** Operator broadcasts only ever remove clients, so names stay unique. */
  lemma {:induction false} OperatorKeepsNamesUnique(reg: Registry, inputs: seq<ConsoleInput>)
    requires NamesUnique(reg)
    ensures NamesUnique(RunOperator(reg, inputs).registry)
    decreases |inputs|
  {
    if |inputs| > 0 && inputs[0].Typed? && !IsExit(inputs[0].line) {
      var next := Filter(reg, WriteWorked(inputs[0].writable));
      FilterKeepsNamesUnique(reg, WriteWorked(inputs[0].writable));
      OperatorKeepsNamesUnique(next, inputs[1..]);
    }
  }
}

=== FILE: registry.dfy ===
/**
 The shared client list of the async server: a vector of
 `(name, writer)` pairs in registration order. A writer is an
 `Arc<Mutex<OwnedWriteHalf>>`; two entries hold "the same handle" when their
 `Arc`s point to the same allocation (`Arc::ptr_eq`), which is modelled by
 a `HandleId`. Locking is left out: every operation here is one critical
 section.
 */
module Registry {

  /** Allocation identity of a client's shared writer (`Arc::ptr_eq`). */
  type HandleId = nat

  datatype Entry = Entry(name: string, handle: HandleId)

  type Registry = seq<Entry>

  /** One write a server task issues: `text` to the writer of entry `to`. */
  datatype Write = Write(to: Entry, text: string)

  /** The same `text` written to each of `to`, in order. */
  function SendAll(to: Registry, text: string): (ws: seq<Write>)
    ensures |ws| == |to|
    ensures forall k :: 0 <= k < |ws| ==> ws[k] == Write(to[k], text)
  {
    seq(|to|, k requires 0 <= k < |to| => Write(to[k], text))
  }

  /** The entries of `s` satisfying `keep`, in their original order (`Vec::retain`). */
  function Filter(s: Registry, keep: Entry -> bool): (r: Registry)
    ensures |r| <= |s|
    ensures forall x {:trigger x in r} :: x in r <==> x in s && keep(x)
  {
    if |s| == 0 then []
    else
      var init := s[..|s| - 1];
      var last := s[|s| - 1];
      assert s == init + [last];
      Filter(init, keep) + (if keep(last) then [last] else [])
  }

  /**
   Filtering keeps every passing entry as often as it occurs and drops every
   other one entirely.
   */
  lemma {:induction false} FilterCounts(s: Registry, keep: Entry -> bool, x: Entry)
    ensures keep(x) ==> multiset(Filter(s, keep))[x] == multiset(s)[x]
    ensures !keep(x) ==> multiset(Filter(s, keep))[x] == 0
  {
    if |s| > 0 {
      var init := s[..|s| - 1];
      var last := s[|s| - 1];
      assert s == init + [last];
      FilterCounts(init, keep, x);
    }
  }

  /** Filtering distributes over concatenation, so relative order is kept. */
  lemma {:induction false} FilterConcat(a: Registry, b: Registry, keep: Entry -> bool)
    ensures Filter(a + b, keep) == Filter(a, keep) + Filter(b, keep)
    decreases |b|
  {
    if |b| == 0 {
      assert a + b == a;
    } else {
      var b' := b[..|b| - 1];
      assert (a + b)[..|a + b| - 1] == a + b';
      assert (a + b)[|a + b| - 1] == b[|b| - 1];
      FilterConcat(a, b', keep);
    }
  }

  /** Filtering keeps a sequence intact when every element passes. */
  lemma {:induction false} FilterKeepsAll(s: Registry, keep: Entry -> bool)
    requires forall k :: 0 <= k < |s| ==> keep(s[k])
    ensures Filter(s, keep) == s
  {
    if |s| > 0 {
      FilterKeepsAll(s[..|s| - 1], keep);
    }
  }

  /** Register: `Vec::push` of the new client's entry. */
  function Register(reg: Registry, name: string, h: HandleId): (r: Registry)
    ensures |r| == |reg| + 1
    ensures r[..|reg|] == reg
    ensures r[|reg|] == Entry(name, h)
  {
    reg + [Entry(name, h)]
  }

  /** True when `e` is the entry a session with this name and writer owns. */
  predicate Owns(e: Entry, name: string, h: HandleId) {
    e.name == name && e.handle == h
  }

  /** The `retain` condition of deregistration: keep what this session does not own. */
  function NotOwnedBy(name: string, h: HandleId): Entry -> bool {
    (e: Entry) => !Owns(e, name, h)
  }

  /**
   Deregister: `retain` every entry whose name differs or whose writer is a
   different allocation, so only exact (name, writer) matches go.
   */
  function Deregister(reg: Registry, name: string, h: HandleId): (r: Registry)
    ensures forall e :: e in r <==> e in reg && !Owns(e, name, h)
    ensures |r| <= |reg|
  {
    Filter(reg, NotOwnedBy(name, h))
  }

  /** Deregister is a no-op when no entry matches both name and writer. */
  lemma DeregisterNoMatch(reg: Registry, name: string, h: HandleId)
    requires forall k :: 0 <= k < |reg| ==> !Owns(reg[k], name, h)
    ensures Deregister(reg, name, h) == reg
  {
    FilterKeepsAll(reg, NotOwnedBy(name, h));
  }

  /** Deregistering twice is the same as deregistering once. */
  lemma DeregisterIdempotent(reg: Registry, name: string, h: HandleId)
    ensures Deregister(Deregister(reg, name, h), name, h) == Deregister(reg, name, h)
  {
    var r := Deregister(reg, name, h);
    assert forall k :: 0 <= k < |r| ==> r[k] in r;
    DeregisterNoMatch(r, name, h);
  }

  /**
   Deregister removes entries independently of each other: the survivors of
   two concatenated lists are the survivors of each, in the same order.
   */
  lemma DeregisterPreservesOrder(a: Registry, b: Registry, name: string, h: HandleId)
    ensures Deregister(a + b, name, h) == Deregister(a, name, h) + Deregister(b, name, h)
  {
    FilterConcat(a, b, NotOwnedBy(name, h));
  }

  /** A session leaving undoes its own registration when its writer was new. */
  lemma DeregisterUndoesRegister(reg: Registry, name: string, h: HandleId)
    requires forall k :: 0 <= k < |reg| ==> reg[k].handle != h
    ensures Deregister(Register(reg, name, h), name, h) == reg
  {
    DeregisterPreservesOrder(reg, [Entry(name, h)], name, h);
    DeregisterNoMatch(reg, name, h);
  }

  /**
   A session never removes another session's entry, even one registered
   under the same name with a different writer: every entry it does not own
   keeps its multiplicity.
   */
  lemma DeregisterExact(reg: Registry, name: string, h: HandleId, e: Entry)
    requires !Owns(e, name, h)
    ensures multiset(Deregister(reg, name, h))[e] == multiset(reg)[e]
  {
    FilterCounts(reg, NotOwnedBy(name, h), e);
  }

  /** The relay condition: skip entries carrying the sender's name. */
  function NotNamed(sender: string): Entry -> bool {
    (e: Entry) => e.name != sender
  }

  /** The clients a peer message is relayed to: every entry not named like the sender. */
  function Recipients(reg: Registry, sender: string): (r: Registry)
    ensures forall e :: e in r <==> e in reg && e.name != sender
  {
    Filter(reg, NotNamed(sender))
  }

  /** A relayed message reaches each other client once per entry it has. */
  lemma RecipientsCounts(reg: Registry, sender: string, e: Entry)
    ensures e.name != sender ==> multiset(Recipients(reg, sender))[e] == multiset(reg)[e]
    ensures e.name == sender ==> multiset(Recipients(reg, sender))[e] == 0
  {
    FilterCounts(reg, NotNamed(sender), e);
  }

  /** No two entries carry the same name. */
  predicate NamesUnique(reg: Registry) {
    forall i, j :: 0 <= i < j < |reg| ==> reg[i].name != reg[j].name
  }

  /** Filtering out exactly one position is `Vec::remove` of that position. */
  lemma {:induction false} FilterDropsOne(reg: Registry, i: nat, keep: Entry -> bool)
    requires i < |reg|
    requires !keep(reg[i])
    requires forall k :: 0 <= k < |reg| && k != i ==> keep(reg[k])
    ensures Filter(reg, keep) == RemoveAt(reg, i)
    decreases |reg|
  {
    var init, last := reg[..|reg| - 1], reg[|reg| - 1];
    assert Filter(reg, keep) == Filter(init, keep) + (if keep(last) then [last] else []);
    if i == |reg| - 1 {
      forall k | 0 <= k < |init| ensures keep(init[k]) {
        assert init[k] == reg[k];
      }
      FilterKeepsAll(init, keep);
      assert RemoveAt(reg, i) == init;
    } else {
      forall k | 0 <= k < |init| && k != i ensures keep(init[k]) {
        assert init[k] == reg[k];
      }
      assert init[i] == reg[i];
      FilterDropsOne(init, i, keep);
      assert RemoveAt(init, i) + [last] == RemoveAt(reg, i);
    }
  }

  /**
   When names are unique, a client's message is relayed to every entry but
   its own, in registry order.
   */
  lemma RecipientsAreTheOthers(reg: Registry, i: nat)
    requires NamesUnique(reg)
    requires i < |reg|
    ensures Recipients(reg, reg[i].name) == RemoveAt(reg, i)
  {
    var keep := NotNamed(reg[i].name);
    forall k | 0 <= k < |reg| && k != i ensures keep(reg[k]) {
      if k < i { assert reg[k].name != reg[i].name; } else { assert reg[i].name != reg[k].name; }
    }
    FilterDropsOne(reg, i, keep);
  }

  /** Filtering a list whose names are unique leaves the names unique. */
  lemma {:induction false} FilterKeepsNamesUnique(reg: Registry, keep: Entry -> bool)
    requires NamesUnique(reg)
    ensures NamesUnique(Filter(reg, keep))
  {
    if |reg| > 0 {
      var init := reg[..|reg| - 1];
      var last := reg[|reg| - 1];
      FilterKeepsNamesUnique(init, keep);
      var fi := Filter(init, keep);
      forall k | 0 <= k < |fi| ensures fi[k].name != last.name {
        assert fi[k] in fi;
        assert fi[k] in init;
      }
    }
  }

  /** Registering a name not already present keeps the names unique. */
  lemma RegisterKeepsNamesUnique(reg: Registry, name: string, h: HandleId)
    requires NamesUnique(reg)
    requires forall k :: 0 <= k < |reg| ==> reg[k].name != name
    ensures NamesUnique(Register(reg, name, h))
  {
  }

  /** `Vec::remove(i)`: drops position `i` and shifts the rest down by one. */
  function RemoveAt(reg: Registry, i: nat): (r: Registry)
    requires i < |reg|
    ensures |r| == |reg| - 1
    ensures forall k :: 0 <= k < i ==> r[k] == reg[k]
    ensures forall k :: i <= k < |r| ==> r[k] == reg[k + 1]
  {
    reg[..i] + reg[i + 1..]
  }

  /** The entries among the first `n` whose positions are not in `drop`, in order. */
  function KeepPositions(reg: Registry, drop: set<nat>, n: nat): (r: Registry)
    requires n <= |reg|
    ensures |r| <= n
    decreases n
  {
    if n == 0 then []
    else KeepPositions(reg, drop, n - 1) + (if n - 1 in drop then [] else [reg[n - 1]])
  }

  /** An entry survives exactly when some position holding it was not dropped. */
  lemma {:induction false} KeepPositionsMembers(reg: Registry, drop: set<nat>, n: nat, e: Entry)
    requires n <= |reg|
    ensures e in KeepPositions(reg, drop, n) <==> exists k :: 0 <= k < n && k !in drop && reg[k] == e
    decreases n
  {
    if n > 0 {
      KeepPositionsMembers(reg, drop, n - 1, e);
    }
  }

  /** With nothing dropped below `n`, the first `n` entries are kept as they are. */
  lemma {:induction false} KeepPositionsPrefix(reg: Registry, drop: set<nat>, n: nat)
    requires n <= |reg|
    requires forall d :: d in drop ==> d >= n
    ensures KeepPositions(reg, drop, n) == reg[..n]
    decreases n
  {
    if n > 0 {
      KeepPositionsPrefix(reg, drop, n - 1);
      assert reg[..n] == reg[..n - 1] + [reg[n - 1]];
    }
  }

  /**
   Removing position `i` after positions above `i` are gone is the same as
   dropping `i` along with them: positions below the dropped ones have not
   moved.
   */
  lemma {:induction false} RemoveBelowDropped(reg: Registry, drop: set<nat>, i: nat, n: nat)
    requires i < n <= |reg|
    requires forall d :: d in drop ==> d > i
    ensures i < |KeepPositions(reg, drop, n)|
    ensures KeepPositions(reg, drop, n)[..i + 1] == reg[..i + 1]
    ensures RemoveAt(KeepPositions(reg, drop, n), i) == KeepPositions(reg, drop + {i}, n)
    decreases n
  {
    if n == i + 1 {
      KeepPositionsPrefix(reg, drop, n);
      KeepPositionsPrefix(reg, drop, i);
      assert KeepPositions(reg, drop + {i}, n) == KeepPositions(reg, drop + {i}, i);
      assert KeepPositions(reg, drop + {i}, i) == KeepPositions(reg, drop, i) by {
        KeepPositionsPrefix(reg, drop + {i}, i);
      }
      assert reg[..n][..i] == reg[..i];
    } else {
      RemoveBelowDropped(reg, drop, i, n - 1);
      var tail := if n - 1 in drop then [] else [reg[n - 1]];
      var before := KeepPositions(reg, drop, n - 1);
      assert KeepPositions(reg, drop, n) == before + tail;
      assert (before + tail)[..i + 1] == before[..i + 1];
      assert RemoveAt(before + tail, i) == RemoveAt(before, i) + tail;
    }
  }

  predicate StrictlyAscending(s: seq<nat>) {
    forall k, l :: 0 <= k < l < |s| ==> s[k] < s[l]
  }

  /** The positions named in `idx`, as a set. */
  function PositionSet(idx: seq<nat>): (d: set<nat>)
    ensures forall p :: p in d <==> p in idx
  {
    set k | 0 <= k < |idx| :: idx[k]
  }

  /**
   The operator's pruning pass: remove the collected ascending positions
   one at a time, the last first (`for &i in failed.iter().rev()`), so that
   no removal shifts a position still to be removed. The result is the
   registry with exactly those positions dropped.
   */
  method RemoveInReverse(reg: Registry, failed: seq<nat>) returns (r: Registry)
    requires StrictlyAscending(failed)
    requires forall k :: 0 <= k < |failed| ==> failed[k] < |reg|
    ensures r == KeepPositions(reg, PositionSet(failed), |reg|)
    ensures |r| == |reg| - |failed|
  {
    r := reg;
    var k := |failed|;
    KeepPositionsPrefix(reg, {}, |reg|);
    assert PositionSet(failed[k..]) == {};
    while k > 0
      invariant 0 <= k <= |failed|
      invariant r == KeepPositions(reg, PositionSet(failed[k..]), |reg|)
      invariant |r| == |reg| - (|failed| - k)
    {
      k := k - 1;
      var i := failed[k];
      RemoveBelowDropped(reg, PositionSet(failed[k + 1..]), i, |reg|);
      assert PositionSet(failed[k..]) == PositionSet(failed[k + 1..]) + {i} by {
        assert failed[k..] == [i] + failed[k + 1..];
      }
      r := RemoveAt(r, i);
    }
    assert failed[0..] == failed;
  }

  /**
   Dropping exactly the positions whose entry fails `keep` is the same as
   filtering by `keep`: pruning by position agrees with `retain`.
   */
  lemma {:induction false} KeepPositionsIsFilter(reg: Registry, keep: Entry -> bool, drop: set<nat>, n: nat)
    requires n <= |reg|
    requires forall k :: 0 <= k < n ==> (k in drop <==> !keep(reg[k]))
    ensures KeepPositions(reg, drop, n) == Filter(reg[..n], keep)
    decreases n
  {
    if n > 0 {
      KeepPositionsIsFilter(reg, keep, drop, n - 1);
      assert reg[..n][..n - 1] == reg[..n - 1];
    }
  }
}

=== FILE: session.dfy ===
/**
 One client session of the async server (`handle_connection`): register,
 loop over whatever the `select!` yields first (a line, end of stream, a
 read error or the shutdown signal), then deregister.

 The `select!` is modelled as a sequence of events. The outcome of the echo
 write rides on each line event; the outcome of each relay write is not
 needed, because the session discards it (see `RelayToOthers`). Only this
 session changes the registry while it runs.
 */
module Session {
  import opened Text
  import opened Registry

  datatype Event =
    | Line(raw: string, echoOk: bool)  // `read_line` returned the characters of `raw`, terminator included
    | Eof                              // `read_line` returned `Ok(0)`
    | ReadErr                          // `read_line` failed (including invalid UTF-8)
    | Shutdown                         // the shutdown broadcast arrived first

  datatype ExitCause = PeerClosed | TooLong | ExitCommand | EchoFailed | ReadError | ShutdownReceived

  /** What the session does with one received line. */
  datatype Verdict = Oversize | ExitRequest | Relay(message: string)

  /**
   The line rule: trim first, then reject a message longer than the limit
   (in bytes, after trimming), then recognise `exit`, else relay the whole
   trimmed message.
   */
  function Classify(raw: string): (v: Verdict)
    ensures v.Oversize? <==> Utf8Len(Trim(raw)) > MaxMessageSize
    ensures v.ExitRequest? <==> Utf8Len(Trim(raw)) <= MaxMessageSize && IsExit(Trim(raw))
    ensures v.Relay? ==> v.message == Trim(raw) && Utf8Len(v.message) <= MaxMessageSize && !IsExit(v.message)
  {
    var message := Trim(raw);
    if Utf8Len(message) > MaxMessageSize then Oversize
    else if IsExit(message) then ExitRequest
    else Relay(message)
  }

  datatype StepResult =
    | Proceed(writes: seq<Write>)
    | Halt(cause: ExitCause, writes: seq<Write>)

  /** One pass of the loop body for the session owning entry `self`. */
  function Step(reg: Registry, self: Entry, ev: Event): (s: StepResult)
  {
    match ev
    case Eof => Halt(PeerClosed, [])
    case ReadErr => Halt(ReadError, [])
    case Shutdown => Halt(ShutdownReceived, [])
    case Line(raw, echoOk) =>
      if |raw| == 0 then Halt(PeerClosed, [])
      else
        match Classify(raw)
        case Oversize => Halt(TooLong, [])
        case ExitRequest => Halt(ExitCommand, [])
        case Relay(m) =>
          var echo := Write(self, EchoText(m));
          if !echoOk then Halt(EchoFailed, [echo])
          else Proceed([echo] + SendAll(Recipients(reg, self.name), SaysText(self.name, m)))
  }

  /**
   The shape of every pass: only a line lets the loop go on, and whatever a
   pass writes starts with the echo to the sender; the other events end the
   loop without writing, and a pass that writes and halts wrote only the
   echo that failed.
   */
  lemma StepShape(reg: Registry, self: Entry, ev: Event)
    ensures var s := Step(reg, self, ev);
      && (s.Proceed? ==> ev.Line?)
      && (!ev.Line? ==> s.Halt? && s.writes == [])
      && (|s.writes| > 0 ==> ev.Line? && s.writes[0] == Write(self, EchoText(Trim(ev.raw))))
      && (s.Halt? && |s.writes| > 0 ==> s.cause == EchoFailed && |s.writes| == 1)
  {
  }

  /**
   The per-line promises: an oversized or `exit` line ends the session and
   writes nothing; any other line writes the echo to the sender first, ends
   the session if that write fails, and otherwise relays the message to
   exactly the other clients, in registry order, never to the sender.
   */
  lemma LineRule(reg: Registry, self: Entry, raw: string, echoOk: bool)
    requires |raw| > 0
    ensures var s := Step(reg, self, Line(raw, echoOk));
      && (Utf8Len(Trim(raw)) > MaxMessageSize ==> s == Halt(TooLong, []))
      && (Utf8Len(Trim(raw)) <= MaxMessageSize && IsExit(Trim(raw)) ==> s == Halt(ExitCommand, []))
      && (Utf8Len(Trim(raw)) <= MaxMessageSize && !IsExit(Trim(raw)) ==>
            && |s.writes| >= 1
            && s.writes[0] == Write(self, EchoText(Trim(raw)))
            && (!echoOk <==> s.Halt?)
            && (s.Halt? ==> s.cause == EchoFailed && |s.writes| == 1)
            && (s.Proceed? ==>
                  && |s.writes| == 1 + |Recipients(reg, self.name)|
                  && forall k :: 1 <= k < |s.writes| ==>
                       s.writes[k] == Write(Recipients(reg, self.name)[k - 1], SaysText(self.name, Trim(raw)))
                       && s.writes[k].to.name != self.name))
  {
    var s := Step(reg, self, Line(raw, echoOk));
    if s.Proceed? {
      var rs := Recipients(reg, self.name);
      forall k | 1 <= k < |s.writes|
        ensures s.writes[k].to.name != self.name
      {
        assert s.writes[k].to == rs[k - 1];
        assert rs[k - 1] in rs;
      }
    }
  }

  /**
   With clients 1, 2 and 3 registered, client 1 sending `hi` gets
   `You said: hi` back and clients 2 and 3 each get `Client 1 says: hi`;
   client 1 gets no copy of the relay.
   */
  lemma FanOutExample(a: Entry, b: Entry, c: Entry, raw: string)
    requires a.name == "Client 1" && b.name == "Client 2" && c.name == "Client 3"
    requires raw == "hi\n"
    ensures Step([a, b, c], a, Line(raw, true))
      == Proceed([Write(a, "You said: hi\n"), Write(b, "Client 1 says: hi\n"), Write(c, "Client 1 says: hi\n")])
  {
    ClassifyHi();
    OthersOfClientOne(a, b, c);
    FanOutShape(a, b, c, raw, "hi");
    HiTexts();
  }

  /** A relayed line from `a` when `b` and `c` are the only others. */
  lemma FanOutShape(a: Entry, b: Entry, c: Entry, raw: string, m: string)
    requires |raw| > 0 && Classify(raw) == Relay(m)
    requires Recipients([a, b, c], a.name) == [b, c]
    ensures Step([a, b, c], a, Line(raw, true))
      == Proceed([Write(a, EchoText(m)), Write(b, SaysText(a.name, m)), Write(c, SaysText(a.name, m))])
  {
    var text := SaysText(a.name, m);
    RelayStep([a, b, c], a, raw, m);
    assert SendAll([b, c], text) == [Write(b, text), Write(c, text)];
  }

  /** A line classified for relaying, with a working echo, proceeds with the echo and the relay. */
  lemma RelayStep(reg: Registry, self: Entry, raw: string, m: string)
    requires |raw| > 0 && Classify(raw) == Relay(m)
    ensures Step(reg, self, Line(raw, true))
      == Proceed([Write(self, EchoText(m))] + SendAll(Recipients(reg, self.name), SaysText(self.name, m)))
  {
  }

  lemma HiTexts()
    ensures EchoText("hi") == "You said: hi\n"
    ensures SaysText("Client 1", "hi") == "Client 1 says: hi\n"
  {
  }

  lemma ClassifyHi()
    ensures Classify("hi\n") == Relay("hi")
  {
    var raw := "hi\n";
    assert raw[..0] == [] && raw[2..] == "\n";
    TrimCharacterized(raw, 0, 2);
    assert raw[0..2] == "hi";
    AsciiByteLength("hi");
  }

  lemma OthersOfClientOne(a: Entry, b: Entry, c: Entry)
    requires a.name == "Client 1" && b.name == "Client 2" && c.name == "Client 3"
    ensures Recipients([a, b, c], a.name) == [b, c]
  {
    var reg := [a, b, c];
    assert NamesUnique(reg) by {
      assert a.name[7] == '1' && b.name[7] == '2' && c.name[7] == '3';
    }
    RecipientsAreTheOthers(reg, 0);
    assert RemoveAt(reg, 0) == [b, c];
  }

  /** Events that end the loop whatever else holds. */
  lemma NonLineEventsHalt(reg: Registry, self: Entry)
    ensures Step(reg, self, Eof) == Halt(PeerClosed, [])
    ensures Step(reg, self, ReadErr) == Halt(ReadError, [])
    ensures Step(reg, self, Shutdown) == Halt(ShutdownReceived, [])
    ensures Step(reg, self, Line([], true)) == Halt(PeerClosed, [])
  {
  }

  /** How the read loop stands after consuming the events it was given. */
  datatype LoopOutcome =
    | Exited(cause: ExitCause, writes: seq<Write>, consumed: nat)
    | Waiting(writes: seq<Write>)  // no exit yet: the `select!` is still waiting

  /** The loop outcome once `w` has been written by an earlier, non-halting pass. */
  function AfterProceed(w: seq<Write>, rest: LoopOutcome): LoopOutcome {
    match rest
    case Waiting(w') => Waiting(w + w')
    case Exited(c, w', n) => Exited(c, w + w', n + 1)
  }

  /** `f` applied to each element of `xs`, in order. */
  function Map<T, U>(f: T -> U, xs: seq<T>): (ys: seq<U>)
    ensures |ys| == |xs|
    ensures forall k :: 0 <= k < |xs| ==> ys[k] == f(xs[k])
  {
    seq(|xs|, k requires 0 <= k < |xs| => f(xs[k]))
  }

  lemma MapConcat<T, U>(f: T -> U, a: seq<T>, b: seq<T>)
    ensures Map(f, a + b) == Map(f, a) + Map(f, b)
  {
    var l, r := Map(f, a + b), Map(f, a) + Map(f, b);
    forall k | 0 <= k < |l| ensures l[k] == r[k] {
      if k < |a| { assert (a + b)[k] == a[k]; } else { assert (a + b)[k] == b[k - |a|]; }
    }
  }

  /** The loop body of the session owning `self`, as a function of the event. */
  function PassOf(reg: Registry, self: Entry): Event -> StepResult {
    ev => Step(reg, self, ev)
  }

  /** The pass each event leads to, in order. */
  function Passes(reg: Registry, self: Entry, events: seq<Event>): (ss: seq<StepResult>)
    ensures |ss| == |events|
    ensures forall k :: 0 <= k < |events| ==> ss[k] == Step(reg, self, events[k])
  {
    Map(PassOf(reg, self), events)
  }

  /** Everything a sequence of passes writes, pass by pass, in order. */
  function Writes(ss: seq<StepResult>): seq<Write>
    decreases |ss|
  {
    if |ss| == 0 then [] else ss[0].writes + Writes(ss[1..])
  }

  lemma {:induction false} WritesSnoc(ss: seq<StepResult>, s: StepResult)
    ensures Writes(ss + [s]) == Writes(ss) + s.writes
    decreases |ss|
  {
    if |ss| == 0 {
      assert ([s])[1..] == [];
    } else {
      assert (ss + [s])[1..] == ss[1..] + [s];
      WritesSnoc(ss[1..], s);
    }
  }

  /** The `loop { select! { … } }` over a sequence of passes: the first halting pass ends it. */
  function Fold(ss: seq<StepResult>): (o: LoopOutcome)
    ensures o.Exited? ==> 1 <= o.consumed <= |ss|
    decreases |ss|
  {
    if |ss| == 0 then Waiting([])
    else
      match ss[0]
      case Halt(c, w) => Exited(c, w, 1)
      case Proceed(w) => AfterProceed(w, Fold(ss[1..]))
  }

  /**
   What the fold has written is the writes of every pass up to and
   including the one it exited on, in order, and that pass halted for the
   fold's cause.
   */
  lemma {:induction false} FoldWrites(ss: seq<StepResult>)
    ensures var o := Fold(ss);
      && (o.Exited? ==> ss[o.consumed - 1].Halt? && o.cause == ss[o.consumed - 1].cause)
      && (o.Exited? ==> o.writes == Writes(ss[..o.consumed]))
      && (o.Waiting? ==> o.writes == Writes(ss))
    decreases |ss|
  {
    if |ss| > 0 {
      if ss[0].Halt? {
        assert ss[..1][1..] == [];
      } else {
        FoldWrites(ss[1..]);
        var rest := Fold(ss[1..]);
        if rest.Exited? {
          assert ss[..rest.consumed + 1][1..] == ss[1..][..rest.consumed];
        }
      }
    }
  }

  /** The read loop of a session, run over the events it sees. */
  function RunLoop(reg: Registry, self: Entry, events: seq<Event>): (o: LoopOutcome)
    ensures o.Exited? ==> 1 <= o.consumed <= |events|
  {
    Fold(Passes(reg, self, events))
  }

  /**
   The loop has written the writes of each pass it ran, in order, up to and
   including the one it exited on.
   */
  lemma RunLoopWrites(reg: Registry, self: Entry, events: seq<Event>)
    ensures var o := RunLoop(reg, self, events);
      && (o.Exited? ==> o.writes == Writes(Passes(reg, self, events)[..o.consumed]))
      && (o.Waiting? ==> o.writes == Writes(Passes(reg, self, events)))
  {
    FoldWrites(Passes(reg, self, events));
  }

  lemma PassesConcat(reg: Registry, self: Entry, a: seq<Event>, b: seq<Event>)
    ensures Passes(reg, self, a + b) == Passes(reg, self, a) + Passes(reg, self, b)
  {
    MapConcat(PassOf(reg, self), a, b);
  }

  lemma {:induction false} FoldStopsAtFirstHalt(ss: seq<StepResult>, k: nat)
    requires k < |ss| && ss[k].Halt?
    requires forall j :: 0 <= j < k ==> ss[j].Proceed?
    ensures Fold(ss) == Exited(ss[k].cause, Fold(ss).writes, k + 1)
    decreases k
  {
    if k > 0 {
      FoldStopsAtFirstHalt(ss[1..], k - 1);
    }
  }

  lemma {:induction false} FoldWaitsWithoutHalt(ss: seq<StepResult>)
    requires forall j :: 0 <= j < |ss| ==> ss[j].Proceed?
    ensures Fold(ss).Waiting?
    decreases |ss|
  {
    if |ss| > 0 {
      FoldWaitsWithoutHalt(ss[1..]);
    }
  }

  /** A fold that is still waiting has met no halting pass. */
  lemma {:induction false} FoldWaits(ss: seq<StepResult>)
    requires Fold(ss).Waiting?
    ensures forall j :: 0 <= j < |ss| ==> ss[j].Proceed?
    decreases |ss|
  {
    if |ss| > 0 {
      FoldWaits(ss[1..]);
      forall j | 1 <= j < |ss| ensures ss[j].Proceed? {
        assert ss[j] == ss[1..][j - 1];
      }
    }
  }

  lemma {:induction false} FoldIgnoresLater(ss: seq<StepResult>, more: seq<StepResult>)
    requires Fold(ss).Exited?
    ensures Fold(ss + more) == Fold(ss)
    decreases |ss|
  {
    var all := ss + more;
    assert all[0] == ss[0];
    if ss[0].Proceed? {
      assert all[1..] == ss[1..] + more;
      FoldIgnoresLater(ss[1..], more);
    }
  }

  /**
   The loop exits at the first halting event and for that event's reason;
   every earlier event let it go on.
   */
  lemma RunLoopStopsAtFirstHalt(reg: Registry, self: Entry, events: seq<Event>, k: nat)
    requires k < |events|
    requires Step(reg, self, events[k]).Halt?
    requires forall j :: 0 <= j < k ==> Step(reg, self, events[j]).Proceed?
    ensures RunLoop(reg, self, events).Exited?
    ensures RunLoop(reg, self, events).cause == Step(reg, self, events[k]).cause
    ensures RunLoop(reg, self, events).consumed == k + 1
    ensures RunLoop(reg, self, events).writes == Writes(Passes(reg, self, events)[..k + 1])
  {
    FoldStopsAtFirstHalt(Passes(reg, self, events), k);
    FoldWrites(Passes(reg, self, events));
  }

  /**
   While the loop is still waiting, one more event adds exactly that pass's
   writes after everything written so far, and the loop exits then exactly
   when that pass halts.
   */
  lemma RunLoopAppendsPass(reg: Registry, self: Entry, events: seq<Event>, e: Event)
    requires RunLoop(reg, self, events).Waiting?
    ensures RunLoop(reg, self, events + [e]).writes
         == RunLoop(reg, self, events).writes + Step(reg, self, e).writes
    ensures RunLoop(reg, self, events + [e]).Exited? <==> Step(reg, self, e).Halt?
  {
    var ss, s := Passes(reg, self, events), Step(reg, self, e);
    PassesConcat(reg, self, events, [e]);
    assert Passes(reg, self, [e]) == [s];
    var all := ss + [s];
    FoldWaits(ss);
    FoldWrites(ss);
    FoldWrites(all);
    WritesSnoc(ss, s);
    if s.Halt? {
      FoldStopsAtFirstHalt(all, |ss|);
      assert all[..|ss| + 1] == all;
    } else {
      FoldWaitsWithoutHalt(all);
    }
  }

  /** With no halting event the loop is still waiting for input. */
  lemma RunLoopWaitsWithoutHalt(reg: Registry, self: Entry, events: seq<Event>)
    requires forall j :: 0 <= j < |events| ==> Step(reg, self, events[j]).Proceed?
    ensures RunLoop(reg, self, events).Waiting?
  {
    FoldWaitsWithoutHalt(Passes(reg, self, events));
  }

  /** Once the loop has exited, later events change nothing. */
  lemma RunLoopIgnoresLaterEvents(reg: Registry, self: Entry, events: seq<Event>, more: seq<Event>)
    requires RunLoop(reg, self, events).Exited?
    ensures RunLoop(reg, self, events + more) == RunLoop(reg, self, events)
  {
    PassesConcat(reg, self, events, more);
    FoldIgnoresLater(Passes(reg, self, events), Passes(reg, self, more));
  }

  /** What a session has done so far. */
  datatype SessionOutcome =
    | Closed(cause: ExitCause, writes: seq<Write>, registry: Registry)
    | Open(writes: seq<Write>, registry: Registry)

  /**
   A whole session: push the entry, run the loop, and, however the loop was
   left, run the one deregistration step.
   */
  function RunSession(reg: Registry, name: string, h: HandleId, events: seq<Event>): (o: SessionOutcome)
    ensures o.writes == RunLoop(Register(reg, name, h), Entry(name, h), events).writes
    ensures o.Closed? ==> forall e :: e in o.registry ==> !Owns(e, name, h)
    ensures o.Open? ==> Entry(name, h) in o.registry
  {
    var registered := Register(reg, name, h);
    match RunLoop(registered, Entry(name, h), events)
    case Exited(c, w, _) => Closed(c, w, Deregister(registered, name, h))
    case Waiting(w) => Open(w, registered)
  }

  /** The loop exits exactly when one of the events ends it. */
  lemma RunLoopExitsIffSomeHalt(reg: Registry, self: Entry, events: seq<Event>)
    ensures RunLoop(reg, self, events).Exited?
            <==> exists k :: 0 <= k < |events| && Step(reg, self, events[k]).Halt?
  {
    if k :| 0 <= k < |events| && Step(reg, self, events[k]).Halt? {
      var first := FirstHalt(Passes(reg, self, events), k);
      RunLoopStopsAtFirstHalt(reg, self, events, first);
    } else {
      RunLoopWaitsWithoutHalt(reg, self, events);
    }
  }

  /** Some step halts, so a first one does. */
  lemma FirstHalt(steps: seq<StepResult>, k: nat) returns (first: nat)
    requires k < |steps| && steps[k].Halt?
    ensures first <= k && steps[first].Halt?
    ensures forall j :: 0 <= j < first ==> steps[j].Proceed?
  {
    first := 0;
    while steps[first].Proceed?
      invariant first <= k
      invariant forall j :: 0 <= j < first ==> steps[j].Proceed?
      decreases k - first
    {
      first := first + 1;
    }
  }

  /**
   Every exit path deregisters: the session closes exactly when some event
   ends its loop, whichever of the six reasons that is; a closed session
   leaves no entry with its name and writer and, when its writer was new,
   leaves the registry as it found it; an open session is still listed.
   */
  lemma EveryExitDeregisters(reg: Registry, name: string, h: HandleId, events: seq<Event>)
    requires forall k :: 0 <= k < |reg| ==> reg[k].handle != h
    ensures var o := RunSession(reg, name, h, events);
      && (o.Closed? <==> exists k :: 0 <= k < |events| && Step(Register(reg, name, h), Entry(name, h), events[k]).Halt?)
      && (o.Closed? ==> o.registry == reg && forall e :: e in o.registry ==> !Owns(e, name, h))
      && (o.Open? ==> Entry(name, h) in o.registry)
  {
    var registered := Register(reg, name, h);
    RunLoopExitsIffSomeHalt(registered, Entry(name, h), events);
    DeregisterUndoesRegister(reg, name, h);
    assert registered[|reg|] == Entry(name, h);
  }

  /**
   The shutdown signal ends a session at the first wait after it fires,
   without any further input from the client, and the session deregisters.
   */
  lemma ShutdownEndsSession(reg: Registry, name: string, h: HandleId, events: seq<Event>, k: nat)
    requires forall j :: 0 <= j < |reg| ==> reg[j].handle != h
    requires k < |events| && events[k] == Shutdown
    requires forall j :: 0 <= j < k ==> Step(Register(reg, name, h), Entry(name, h), events[j]).Proceed?
    ensures RunSession(reg, name, h, events) == Closed(ShutdownReceived, RunSession(reg, name, h, events).writes, reg)
  {
    RunLoopStopsAtFirstHalt(Register(reg, name, h), Entry(name, h), events, k);
    DeregisterUndoesRegister(reg, name, h);
  }

  /**
   The relay loop: every other client is tried in registry order, and a
   failed write is only logged, so later clients are still tried. Whatever
   fails, the loop tries the same clients and changes no registry entry.
   */
  method RelayToOthers(reg: Registry, sender: string, writable: HandleId -> bool)
    returns (attempted: Registry, delivered: Registry)
    ensures attempted == Recipients(reg, sender)
    ensures delivered == Filter(attempted, (e: Entry) => writable(e.handle))
  {
    attempted, delivered := [], [];
    var i := 0;
    while i < |reg|
      invariant 0 <= i <= |reg|
      invariant attempted == Recipients(reg[..i], sender)
      invariant delivered == Filter(attempted, (e: Entry) => writable(e.handle))
    {
      assert reg[..i + 1][..i] == reg[..i];
      var e := reg[i];
      i := i + 1;
      if e.name == sender {
        continue;
      }
      FilterConcat(attempted, [e], (e: Entry) => writable(e.handle));
      attempted := attempted + [e];
      if writable(e.handle) {
        delivered := delivered + [e];
      }
    }
    assert reg[..i] == reg;
  }
}

=== FILE: text.dfy ===
/**
 Text primitives of the chat relay: the UTF-8 byte length that Rust's
 `str::len` reports, Rust's `trim` (which strips every character for which
 `char::is_whitespace` holds), ASCII-case-insensitive comparison, and the
 three wire formats the server writes.

 Strings are `seq<char>`, each `char` a Unicode scalar value, so a string is
 always valid UTF-8, as a Rust `String` is.
 */
module Text {

  /** Largest accepted message, in bytes (`MAX_MESSAGE_SIZE`). */
  const MaxMessageSize: nat := 1024

  /** Number of bytes the UTF-8 encoding of `c` occupies. */
  function Utf8Width(c: char): (w: nat)
    ensures 1 <= w <= 4
    ensures w == 1 <==> (c as int) < 0x80
  {
    var cp := c as int;
    if cp < 0x80 then 1
    else if cp < 0x800 then 2
    else if cp < 0x1_0000 then 3
    else 4
  }

  /** Byte length of the UTF-8 encoding of `s`, which is what `str::len` returns. */
  function Utf8Len(s: string): (n: nat)
    ensures |s| <= n <= 4 * |s|
  {
    if |s| == 0 then 0 else Utf8Len(s[..|s| - 1]) + Utf8Width(s[|s| - 1])
  }

  /** The byte length of a concatenation is the sum of the byte lengths. */
  lemma {:induction false} Utf8LenConcat(a: string, b: string)
    ensures Utf8Len(a + b) == Utf8Len(a) + Utf8Len(b)
    decreases |b|
  {
    if |b| == 0 {
      assert a + b == a;
    } else {
      var b' := b[..|b| - 1];
      assert (a + b)[..|a + b| - 1] == a + b';
      assert (a + b)[|a + b| - 1] == b[|b| - 1];
      Utf8LenConcat(a, b');
    }
  }

  predicate IsAscii(s: string) {
    forall k :: 0 <= k < |s| ==> (s[k] as int) < 0x80
  }

  /** A string of ASCII characters has exactly one byte per character. */
  lemma {:induction false} AsciiByteLength(s: string)
    requires IsAscii(s)
    ensures Utf8Len(s) == |s|
  {
    if |s| > 0 {
      AsciiByteLength(s[..|s| - 1]);
    }
  }

  /** Cutting a string in two never yields a piece longer in bytes than the whole. */
  lemma Utf8LenSlices(s: string, i: nat)
    requires i <= |s|
    ensures Utf8Len(s[..i]) <= Utf8Len(s)
    ensures Utf8Len(s[i..]) <= Utf8Len(s)
  {
    assert s == s[..i] + s[i..];
    Utf8LenConcat(s[..i], s[i..]);
  }

  /**
   Rust's `char::is_whitespace`: the characters with the Unicode
   `White_Space` property.
   */
  predicate IsWhitespace(c: char) {
    var cp := c as int;
    || 0x09 <= cp <= 0x0D
    || cp == 0x20
    || cp == 0x85
    || cp == 0xA0
    || cp == 0x1680
    || 0x2000 <= cp <= 0x200A
    || cp == 0x2028
    || cp == 0x2029
    || cp == 0x202F
    || cp == 0x205F
    || cp == 0x3000
  }

  predicate AllWhitespace(s: string) {
    forall k :: 0 <= k < |s| ==> IsWhitespace(s[k])
  }

  /** `str::trim_start`: the suffix left after dropping leading whitespace. */
  function TrimStart(s: string): (r: string)
    ensures |r| <= |s| && r == s[|s| - |r|..]
    ensures AllWhitespace(s[..|s| - |r|])
    ensures r == [] || !IsWhitespace(r[0])
  {
    if |s| > 0 && IsWhitespace(s[0]) then TrimStart(s[1..]) else s
  }

  /** `str::trim_end`: the prefix left after dropping trailing whitespace. */
  function TrimEnd(s: string): (r: string)
    ensures |r| <= |s| && r == s[..|r|]
    ensures AllWhitespace(s[|r|..])
    ensures r == [] || !IsWhitespace(r[|r| - 1])
  {
    if |s| > 0 && IsWhitespace(s[|s| - 1]) then TrimEnd(s[..|s| - 1]) else s
  }

  /** `str::trim`: drops whitespace at both ends and keeps everything in between. */
  function Trim(s: string): (r: string)
    ensures r == [] || (!IsWhitespace(r[0]) && !IsWhitespace(r[|r| - 1]))
    ensures Utf8Len(r) <= Utf8Len(s)
  {
    var t := TrimStart(s);
    var r := TrimEnd(t);
    Utf8LenSlices(s, |s| - |t|);
    Utf8LenSlices(t, |r|);
    r
  }

  /** Leading whitespace ends at `i` exactly when `trim_start` leaves `s[i..]`. */
  lemma {:induction false} TrimStartAt(s: string, i: nat)
    requires i <= |s|
    requires AllWhitespace(s[..i])
    requires i == |s| || !IsWhitespace(s[i])
    ensures TrimStart(s) == s[i..]
    decreases i
  {
    if i > 0 {
      assert IsWhitespace(s[0]) by { assert s[..i][0] == s[0]; }
      var s' := s[1..];
      var lead, lead' := s[..i], s'[..i - 1];
      assert AllWhitespace(lead') by {
        forall k | 0 <= k < i - 1 ensures IsWhitespace(lead'[k]) {
          assert lead'[k] == lead[k + 1];
        }
      }
      assert i - 1 < |s'| ==> s'[i - 1] == s[i];
      TrimStartAt(s', i - 1);
      assert s'[i - 1..] == s[i..];
    }
  }

  /** Trailing whitespace starts at `j` exactly when `trim_end` leaves `s[..j]`. */
  lemma {:induction false} TrimEndAt(s: string, j: nat)
    requires j <= |s|
    requires AllWhitespace(s[j..])
    requires j == 0 || !IsWhitespace(s[j - 1])
    ensures TrimEnd(s) == s[..j]
    decreases |s| - j
  {
    if j < |s| {
      assert IsWhitespace(s[|s| - 1]) by { assert s[j..][|s| - 1 - j] == s[|s| - 1]; }
      var s' := s[..|s| - 1];
      assert AllWhitespace(s'[j..]) by {
        forall k | 0 <= k < |s'| - j ensures IsWhitespace(s'[j..][k]) {
          assert s'[j..][k] == s[j..][k];
        }
      }
      assert j > 0 ==> s'[j - 1] == s[j - 1];
      TrimEndAt(s', j);
      assert s'[..j] == s[..j];
    }
  }

  lemma AllWhitespaceConcat(a: string, b: string)
    requires AllWhitespace(a) && AllWhitespace(b)
    ensures AllWhitespace(a + b)
  {
    forall k | 0 <= k < |a + b| ensures IsWhitespace((a + b)[k]) {
      if k >= |a| { assert (a + b)[k] == b[k - |a|]; }
    }
  }

  /** A line of nothing but whitespace trims to the empty message. */
  lemma BlankTrimsToEmpty(s: string)
    requires AllWhitespace(s)
    ensures Trim(s) == []
  {
    assert s[..|s|] == s;
    TrimStartAt(s, |s|);
  }

  /**
   Trimming is determined by where the string's non-whitespace begins and
   ends: cutting `s` at any two points that leave only whitespace outside and
   no whitespace at the ends of the piece yields `Trim(s)`.
   */
  lemma TrimCharacterized(s: string, i: nat, j: nat)
    requires i <= j <= |s|
    requires AllWhitespace(s[..i]) && AllWhitespace(s[j..])
    requires i == j || (!IsWhitespace(s[i]) && !IsWhitespace(s[j - 1]))
    ensures Trim(s) == s[i..j]
  {
    if i < j {
      TrimOfCut(s, i, j);
    } else {
      assert s == s[..i] + s[j..];
      AllWhitespaceConcat(s[..i], s[j..]);
      BlankTrimsToEmpty(s);
    }
  }

  lemma TrimOfCut(s: string, i: nat, j: nat)
    requires i < j <= |s|
    requires AllWhitespace(s[..i]) && AllWhitespace(s[j..])
    requires !IsWhitespace(s[i]) && !IsWhitespace(s[j - 1])
    ensures Trim(s) == s[i..j]
  {
    TrimStartAt(s, i);
    var t := s[i..];
    assert TrimStart(s) == t;
    assert t[j - i..] == s[j..];
    assert t[j - i - 1] == s[j - 1];
    TrimEndAt(t, j - i);
    assert TrimEnd(t) == t[..j - i] == s[i..j];
  }

  /** Trimming twice is the same as trimming once. */
  lemma TrimIdempotent(s: string)
    ensures Trim(Trim(s)) == Trim(s)
  {
    var r := Trim(s);
    assert r[..0] == [] && r[|r|..] == [];
    TrimCharacterized(r, 0, |r|);
  }

  /** `u8::to_ascii_lowercase`, lifted to characters: only `A`..`Z` change. */
  function AsciiLower(c: char): (d: char)
    ensures ('A' <= c <= 'Z') ==> (d as int) == (c as int) + 32
    ensures !('A' <= c <= 'Z') ==> d == c
  {
    if 'A' <= c <= 'Z' then (c as int + 32) as char else c
  }

  /** `str::eq_ignore_ascii_case`: same length, equal after ASCII lower-casing. */
  predicate EqIgnoreAsciiCase(a: string, b: string) {
    |a| == |b| && forall k :: 0 <= k < |a| ==> AsciiLower(a[k]) == AsciiLower(b[k])
  }

  /** The command that ends a client session (and, from the console, the server). */
  predicate IsExit(s: string) {
    EqIgnoreAsciiCase(s, "exit")
  }

  /** The sixteen upper/lower-case spellings of "exit". */
  function ExitSpellings(): set<string> {
    set e <- {'e', 'E'}, x <- {'x', 'X'}, i <- {'i', 'I'}, t <- {'t', 'T'} :: [e, x, i, t]
  }

  /** A line is the exit command exactly when it is one of the sixteen spellings. */
  lemma IsExitIffSpelling(s: string)
    ensures IsExit(s) <==> s in ExitSpellings()
  {
    if IsExit(s) {
      assert s[0] in {'e', 'E'} by { assert AsciiLower(s[0]) == 'e'; }
      assert s[1] in {'x', 'X'} by { assert AsciiLower(s[1]) == 'x'; }
      assert s[2] in {'i', 'I'} by { assert AsciiLower(s[2]) == 'i'; }
      assert s[3] in {'t', 'T'} by { assert AsciiLower(s[3]) == 't'; }
      assert s == [s[0], s[1], s[2], s[3]];
    }
    if s in ExitSpellings() {
      var e, x, i, t :| e in {'e', 'E'} && x in {'x', 'X'} && i in {'i', 'I'} && t in {'t', 'T'}
                        && s == [e, x, i, t];
      assert AsciiLower(s[0]) == 'e' && AsciiLower(s[1]) == 'x';
      assert AsciiLower(s[2]) == 'i' && AsciiLower(s[3]) == 't';
    }
  }

  /** Reply to the sender: `You said: {message}` plus a newline. */
  function EchoText(message: string): string {
    "You said: " + message + "\n"
  }

  /** Relay to the other clients: `{name} says: {message}` plus a newline. */
  function SaysText(name: string, message: string): string {
    name + " says: " + message + "\n"
  }

  /** Operator broadcast: `Server says: {line}` plus a newline. */
  function ServerText(line: string): string {
    "Server says: " + line + "\n"
  }

  /**
   Each wire format keeps its payload intact and recoverable: the payload sits
   between the fixed prefix and the newline.
   */
  lemma WireFormatsCarryPayload(name: string, m: string)
    ensures var e := EchoText(m); |e| == |m| + 11 && e[10..|e| - 1] == m && e[|e| - 1] == '\n'
    ensures var o := SaysText(name, m);
      |o| == |name| + |m| + 8 && o[..|name|] == name && o[|name| + 7..|o| - 1] == m
    ensures var v := ServerText(m); |v| == |m| + 14 && v[13..|v| - 1] == m
  {
    var o := SaysText(name, m);
    assert o == name + " says: " + m + "\n";
    assert o[..|name|] == name;
    assert o[|name| + 7..|o| - 1] == m;
  }
}

=== FILE: v3chat.dfy ===
/**
 The threaded one-client server (`v3chat.rs`): a reader thread that echoes
 each line back to its client and an operator thread that writes console
 lines to that client. The reader checks the size of the raw line, with its
 terminator, before trimming; the async server checks the trimmed message.
 */
module V3Chat {
  import opened Text
  import Session

  datatype ReadEvent =
    | Line(raw: string, echoOk: bool)  // `read_line` read `raw`, terminator included
    | Eof                              // `read_line` returned `Ok(0)`
    | ReadErr                          // `read_line` failed

  datatype ReaderExit = PeerClosed | TooLong | ExitCommand | EchoFailed | ReadError

  /** What the reader makes of one raw line. */
  datatype Verdict = Oversize | ExitRequest | Echo(message: string)

  /**
   The reader's line rule: size of the raw line first, then trim and
   recognise `exit`, else echo the trimmed message.
   */
  function Classify(raw: string): (v: Verdict)
    ensures v.Oversize? <==> Utf8Len(raw) > MaxMessageSize
    ensures v.ExitRequest? <==> Utf8Len(raw) <= MaxMessageSize && IsExit(Trim(raw))
    ensures v.Echo? ==> v.message == Trim(raw) && Utf8Len(v.message) <= MaxMessageSize
  {
    if Utf8Len(raw) > MaxMessageSize then Oversize
    else
      var message := Trim(raw);
      if IsExit(message) then ExitRequest else Echo(message)
  }

  datatype ReaderStep =
    | Echoed(reply: string)
    | Finish(cause: ReaderExit, attempted: seq<string>)

  function Step(ev: ReadEvent): ReaderStep {
    match ev
    case Eof => Finish(PeerClosed, [])
    case ReadErr => Finish(ReadError, [])
    case Line(raw, echoOk) =>
      if |raw| == 0 then Finish(PeerClosed, [])
      else
        match Classify(raw)
        case Oversize => Finish(TooLong, [])
        case ExitRequest => Finish(ExitCommand, [])
        case Echo(m) => if echoOk then Echoed(EchoText(m)) else Finish(EchoFailed, [EchoText(m)])
  }

  /**
   The reader's per-line rule: an empty read, end of stream and a read
   error end it; a raw line over the limit and a trimmed `exit` end it with
   no echo; any other line is echoed trimmed, and a failed echo ends the
   reader after that echo alone.
   */
  lemma ReaderLineRule(raw: string, echoOk: bool)
    ensures Step(Eof) == Finish(PeerClosed, []) && Step(ReadErr) == Finish(ReadError, [])
    ensures |raw| == 0 ==> Step(Line(raw, echoOk)) == Finish(PeerClosed, [])
    ensures |raw| > 0 && Utf8Len(raw) > MaxMessageSize ==> Step(Line(raw, echoOk)) == Finish(TooLong, [])
    ensures |raw| > 0 && Utf8Len(raw) <= MaxMessageSize && IsExit(Trim(raw)) ==>
      Step(Line(raw, echoOk)) == Finish(ExitCommand, [])
    ensures |raw| > 0 && Utf8Len(raw) <= MaxMessageSize && !IsExit(Trim(raw)) ==>
      && (echoOk ==> Step(Line(raw, echoOk)) == Echoed(EchoText(Trim(raw))))
      && (!echoOk ==> Step(Line(raw, echoOk)) == Finish(EchoFailed, [EchoText(Trim(raw))]))
  {
  }

  /** Only a line that is echoed lets the reader go on, and it is echoed trimmed. */
  lemma EchoedMeansLine(ev: ReadEvent)
    ensures Step(ev).Echoed? ==> ev.Line? && Step(ev).reply == EchoText(Trim(ev.raw))
  {
  }

  datatype ReaderOutcome =
    | Ended(cause: ReaderExit, sent: seq<string>)
    | Reading(sent: seq<string>)

  function Prepend(sent: seq<string>, o: ReaderOutcome): ReaderOutcome {
    match o
    case Ended(c, s) => Ended(c, sent + s)
    case Reading(s) => Reading(sent + s)
  }

  /** The pass each read result leads to, in order. */
  function Passes(events: seq<ReadEvent>): (ss: seq<ReaderStep>)
    ensures |ss| == |events|
    ensures forall k :: 0 <= k < |events| ==> ss[k] == Step(events[k])
  {
    Session.Map(Step, events)
  }

  /** The reader loop over a sequence of passes: the first `Finish` ends it. */
  function ReaderFold(ss: seq<ReaderStep>): ReaderOutcome
    decreases |ss|
  {
    if |ss| == 0 then Reading([])
    else
      match ss[0]
      case Finish(c, a) => Ended(c, a)
      case Echoed(reply) => Prepend([reply], ReaderFold(ss[1..]))
  }

  /** The reader loop run over the read results it sees. */
  function RunReader(events: seq<ReadEvent>): ReaderOutcome {
    ReaderFold(Passes(events))
  }

  lemma PrependTwice(a: seq<string>, b: seq<string>, o: ReaderOutcome)
    ensures Prepend(a, Prepend(b, o)) == Prepend(a + b, o)
  {
    match o
    case Ended(c, s) => assert a + (b + s) == (a + b) + s;
    case Reading(s) => assert a + (b + s) == (a + b) + s;
  }

  lemma PrependNothing(o: ReaderOutcome)
    ensures Prepend([], o) == o
  {
    match o
    case Ended(c, s) => assert [] + s == s;
    case Reading(s) => assert [] + s == s;
  }

  /**
   One pass of the reader loop body after the buffer was cleared:
   `read_line` appends what it read to the buffer and the pass judges the
   buffer. The buffer must be empty beforehand for the pass to judge the
   latest line alone.
   */
  method ReadAndJudge(buffer: string, ev: ReadEvent) returns (buffer': string, st: ReaderStep)
    requires buffer == []
    ensures st == Step(ev)
    ensures ev.Line? ==> buffer' == ev.raw
  {
    buffer' := buffer;
    match ev {
      case Eof =>
        st := Finish(PeerClosed, []);
      case ReadErr =>
        st := Finish(ReadError, []);
      case Line(raw, echoOk) =>
        buffer' := buffer' + raw;
        assert Line(buffer', echoOk) == ev by { assert buffer' == raw; }
        st := Step(Line(buffer', echoOk));
    }
  }

  /**
   The reader thread with its line buffer: the buffer is cleared before
   every read and `read_line` appends to it, so the line each pass judges is
   exactly the latest one read. The loop therefore behaves as the
   line-by-line fold `RunReader`.
   */
  method ReaderLoop(events: seq<ReadEvent>) returns (o: ReaderOutcome)
    ensures o == RunReader(events)
  {
    ghost var ss := Passes(events);
    var buffer: string := "";
    var sent: seq<string> := [];
    var i := 0;
    assert ss[0..] == ss;
    PrependNothing(RunReader(events));
    while i < |events|
      invariant 0 <= i <= |events|
      invariant RunReader(events) == Prepend(sent, ReaderFold(ss[i..]))
      decreases |events| - i
    {
      buffer := [];
      var st;
      buffer, st := ReadAndJudge(buffer, events[i]);
      ReaderAdvances(ss, i, sent);
      if st.Finish? {
        return Ended(st.cause, sent + st.attempted);
      }
      sent := sent + [st.reply];
      i := i + 1;
    }
    assert ss[i..] == [];
    return Reading(sent);
  }

  /** One pass of the fold, seen from the middle of the sequence of passes. */
  lemma ReaderAdvances(ss: seq<ReaderStep>, i: nat, sent: seq<string>)
    requires i < |ss|
    ensures ss[i].Finish? ==> Prepend(sent, ReaderFold(ss[i..])) == Ended(ss[i].cause, sent + ss[i].attempted)
    ensures ss[i].Echoed? ==>
      Prepend(sent, ReaderFold(ss[i..])) == Prepend(sent + [ss[i].reply], ReaderFold(ss[i + 1..]))
  {
    var rest := ss[i..];
    assert rest[0] == ss[i] && rest[1..] == ss[i + 1..];
    if ss[i].Echoed? {
      PrependTwice(sent, [ss[i].reply], ReaderFold(ss[i + 1..]));
    }
  }

  /** A fold over echoed passes only is still reading and has sent each reply in order. */
  lemma {:induction false} FoldEchoesEach(ss: seq<ReaderStep>)
    requires forall k :: 0 <= k < |ss| ==> ss[k].Echoed?
    ensures ReaderFold(ss).Reading?
    ensures |ReaderFold(ss).sent| == |ss|
    ensures forall k :: 0 <= k < |ss| ==> ReaderFold(ss).sent[k] == ss[k].reply
    decreases |ss|
  {
    if |ss| > 0 {
      FoldEchoesEach(ss[1..]);
      forall k | 1 <= k < |ss| ensures ReaderFold(ss).sent[k] == ss[k].reply {
        assert ss[k] == ss[1..][k - 1];
      }
    }
  }

  /**
   A reader that has seen only echoed lines has sent one `You said:` reply
   per line, the trimmed line each time, in order.
   */
  lemma ReaderEchoesEachLine(events: seq<ReadEvent>)
    requires forall k :: 0 <= k < |events| ==> Step(events[k]).Echoed?
    ensures RunReader(events).Reading?
    ensures |RunReader(events).sent| == |events|
    ensures forall k :: 0 <= k < |events| ==>
      events[k].Line? && RunReader(events).sent[k] == EchoText(Trim(events[k].raw))
  {
    var ss := Passes(events);
    FoldEchoesEach(ss);
    forall k | 0 <= k < |events|
      ensures events[k].Line? && RunReader(events).sent[k] == EchoText(Trim(events[k].raw))
    {
      EchoedMeansLine(events[k]);
    }
  }

  lemma {:induction false} FoldStopsAtFinish(ss: seq<ReaderStep>, k: nat)
    requires k < |ss| && ss[k].Finish?
    requires forall j :: 0 <= j < k ==> ss[j].Echoed?
    ensures ReaderFold(ss).Ended?
    ensures ReaderFold(ss).cause == ss[k].cause
    ensures |ReaderFold(ss).sent| == k + |ss[k].attempted|
    ensures forall j :: 0 <= j < k ==> ReaderFold(ss).sent[j] == ss[j].reply
    ensures ReaderFold(ss).sent[k..] == ss[k].attempted
    decreases k
  {
    if k > 0 {
      FoldStopsAtFinish(ss[1..], k - 1);
      var sent, rest := ReaderFold(ss).sent, ReaderFold(ss[1..]).sent;
      assert sent == [ss[0].reply] + rest;
      forall j | 1 <= j < k ensures sent[j] == ss[j].reply {
        assert ss[j] == ss[1..][j - 1];
      }
      assert sent[k..] == rest[k - 1..];
    }
  }

  /** A finishing event ends the reader and nothing after it is read. */
  lemma ReaderStopsAtFinish(events: seq<ReadEvent>, k: nat)
    requires k < |events| && Step(events[k]).Finish?
    requires forall j :: 0 <= j < k ==> Step(events[j]).Echoed?
    ensures RunReader(events).Ended?
    ensures RunReader(events).cause == Step(events[k]).cause
    ensures |RunReader(events).sent| == k + |Step(events[k]).attempted|
    ensures forall j :: 0 <= j < k ==>
      events[j].Line? && RunReader(events).sent[j] == EchoText(Trim(events[j].raw))
    ensures RunReader(events).sent[k..] == Step(events[k]).attempted
  {
    FoldStopsAtFinish(Passes(events), k);
    forall j | 0 <= j < k
      ensures events[j].Line? && RunReader(events).sent[j] == EchoText(Trim(events[j].raw))
    {
      EchoedMeansLine(events[j]);
    }
  }

  /**
   The reader's size check is on the raw line, so every line the async
   server drops as too long is dropped here too.
   */
  lemma RawCheckIsStricter(raw: string)
    ensures Session.Classify(raw).Oversize? ==> Classify(raw).Oversize?
  {
  }

  /**
   A line of at most 1024 raw bytes, terminator and padding included, is
   judged alike by the two servers: neither rejects it as too long, both
   take it as `exit` or neither does, and what this reader echoes is what
   the async server relays.
   */
  lemma SameVerdictWithinLimit(raw: string)
    requires Utf8Len(raw) <= MaxMessageSize
    ensures !Classify(raw).Oversize? && !Session.Classify(raw).Oversize?
    ensures Classify(raw).ExitRequest? <==> Session.Classify(raw).ExitRequest?
    ensures Classify(raw).Echo? ==> Session.Classify(raw) == Session.Relay(Classify(raw).message)
  {
  }

  /**
   The two size checks disagree exactly on a line whose trimmed message fits
   the limit while the raw line, with its whitespace and terminator, does
   not.
   */
  lemma VerdictsDifferExactly(raw: string)
    ensures (Classify(raw).Oversize? != Session.Classify(raw).Oversize?)
        <==> Utf8Len(Trim(raw)) <= MaxMessageSize < Utf8Len(raw)
  {
  }

  /**
   A message of exactly the maximum size, sent with its line terminator, is
   relayed by the async server but disconnects the client here: the
   terminator counts towards this reader's limit.
   */
  lemma TerminatorCountsHere(m: string)
    requires Utf8Len(m) == MaxMessageSize
    requires m == [] || (!IsWhitespace(m[0]) && !IsWhitespace(m[|m| - 1]))
    ensures Session.Classify(m + "\n") == Session.Relay(m)
    ensures Classify(m + "\n") == Oversize
  {
    var raw := m + "\n";
    assert raw[..0] == [] && raw[|m|..] == "\n";
    assert raw[0..|m|] == m;
    TrimCharacterized(raw, 0, |m|);
    Utf8LenConcat(m, "\n");
    assert !IsExit(m);
  }

  /** Such messages exist: a thousand and twenty-four `a`s. */
  lemma TerminatorCountsHereExample()
    ensures var m := seq(MaxMessageSize, _ => 'a');
      Session.Classify(m + "\n").Relay? && Classify(m + "\n").Oversize?
  {
    var m := seq(MaxMessageSize, _ => 'a');
    AsciiByteLength(m);
    TerminatorCountsHere(m);
  }

  datatype ConsoleInput =
    | Typed(line: string, writeOk: bool)  // a console line (terminator stripped) and whether writing it worked
    | StdinEnd                            // end of console input
    | StdinError                          // a console read error: `unwrap` panics the thread

  datatype OperatorExit = ExitTyped | WriteFailed | InputEnded | Panicked

  datatype OperatorStep =
    | Forwarded(text: string)
    | Quit(cause: OperatorExit, attempted: seq<string>)

  /** The operator thread's line rule: `exit` ends it; any other line is sent as typed. */
  function OperatorRule(input: ConsoleInput): OperatorStep {
    match input
    case StdinEnd => Quit(InputEnded, [])
    case StdinError => Quit(Panicked, [])
    case Typed(line, writeOk) =>
      if IsExit(line) then Quit(ExitTyped, [])
      else if writeOk then Forwarded(ServerText(line))
      else Quit(WriteFailed, [ServerText(line)])
  }

  datatype OperatorOutcome =
    | Done(cause: OperatorExit, sent: seq<string>)
    | Awaiting(sent: seq<string>)

  /**
   The operator thread over its console inputs: while it runs, each console
   line is sent once; when it quits, at most the line that failed is added.
   */
  function RunOperator(inputs: seq<ConsoleInput>): (o: OperatorOutcome)
    ensures o.Awaiting? ==> |o.sent| == |inputs|
    ensures o.Done? ==> |o.sent| <= |inputs|
    decreases |inputs|
  {
    if |inputs| == 0 then Awaiting([])
    else
      match OperatorRule(inputs[0])
      case Quit(c, a) => Done(c, a)
      case Forwarded(t) =>
        match RunOperator(inputs[1..])
        case Done(c, s) => Done(c, [t] + s)
        case Awaiting(s) => Awaiting([t] + s)
  }

  /**
   The operator rule: an `exit` line ends the thread unsent; any other line
   is sent untrimmed as `Server says: {line}`; a failed write ends the
   thread; the end of console input ends it too, and a console read error
   panics it.
   */
  lemma OperatorLineRule(line: string, writeOk: bool)
    ensures IsExit(line) ==> OperatorRule(Typed(line, writeOk)) == Quit(ExitTyped, [])
    ensures !IsExit(line) && writeOk ==> OperatorRule(Typed(line, writeOk)) == Forwarded("Server says: " + line + "\n")
    ensures !IsExit(line) && !writeOk ==>
      OperatorRule(Typed(line, writeOk)).Quit? && OperatorRule(Typed(line, writeOk)).cause == WriteFailed
    ensures OperatorRule(StdinEnd) == Quit(InputEnded, []) && OperatorRule(StdinError) == Quit(Panicked, [])
  {
  }

  /**
   A line typed with padding is not the exit command here, unlike on the
   client side: the operator's line is compared as typed.
   */
  lemma OperatorDoesNotTrim()
    ensures !IsExit(" exit") && IsExit(Trim(" exit"))
    ensures OperatorRule(Typed(" exit", true)) == Forwarded(ServerText(" exit"))
  {
    var s := " exit";
    assert s[..1] == " " && s[|s|..] == [];
    TrimCharacterized(s, 1, |s|);
    assert s[1..] == "exit";
  }

  /**
   An operator thread that has only forwarded lines has written one
   `Server says:` line per console line, each line exactly as typed.
   */
  lemma {:induction false} OperatorForwardsEachLine(inputs: seq<ConsoleInput>)
    requires forall k :: 0 <= k < |inputs| ==> OperatorRule(inputs[k]).Forwarded?
    ensures RunOperator(inputs).Awaiting?
    ensures |RunOperator(inputs).sent| == |inputs|
    ensures forall k :: 0 <= k < |inputs| ==>
      inputs[k].Typed? && RunOperator(inputs).sent[k] == ServerText(inputs[k].line)
    decreases |inputs|
  {
    if |inputs| > 0 {
      OperatorForwardsEachLine(inputs[1..]);
      forall k | 0 <= k < |inputs|
        ensures inputs[k].Typed? && RunOperator(inputs).sent[k] == ServerText(inputs[k].line)
      {
        if k > 0 {
          assert inputs[k] == inputs[1..][k - 1];
        }
      }
    }
  }

  /**
   The operator thread quits at its first quitting input, for that input's
   cause, having sent every earlier line as forwarded, in order, followed by
   at most the line whose write failed.
   */
  lemma {:induction false} OperatorStopsAtQuit(inputs: seq<ConsoleInput>, k: nat)
    requires k < |inputs| && OperatorRule(inputs[k]).Quit?
    requires forall j :: 0 <= j < k ==> OperatorRule(inputs[j]).Forwarded?
    ensures RunOperator(inputs).Done?
    ensures RunOperator(inputs).cause == OperatorRule(inputs[k]).cause
    ensures |RunOperator(inputs).sent| == k + |OperatorRule(inputs[k]).attempted|
    ensures forall j :: 0 <= j < k ==> RunOperator(inputs).sent[j] == OperatorRule(inputs[j]).text
    ensures RunOperator(inputs).sent[k..] == OperatorRule(inputs[k]).attempted
    decreases k
  {
    if k > 0 {
      var rest := inputs[1..];
      assert rest[k - 1] == inputs[k];
      forall j | 0 <= j < k - 1 ensures OperatorRule(rest[j]).Forwarded? {
        assert rest[j] == inputs[j + 1];
      }
      OperatorStopsAtQuit(rest, k - 1);
      var sent, tail := RunOperator(inputs).sent, RunOperator(rest).sent;
      assert sent == [OperatorRule(inputs[0]).text] + tail;
      forall j | 1 <= j < k ensures sent[j] == OperatorRule(inputs[j]).text {
        assert inputs[j] == rest[j - 1];
      }
      assert sent[k..] == tail[k - 1..];
    }
  }

  /** After the operator thread quits, later console lines are not sent. */
  lemma {:induction false} OperatorIgnoresLaterInput(inputs: seq<ConsoleInput>, more: seq<ConsoleInput>)
    requires RunOperator(inputs).Done?
    ensures RunOperator(inputs + more) == RunOperator(inputs)
    decreases |inputs|
  {
    assert (inputs + more)[0] == inputs[0];
    if OperatorRule(inputs[0]).Forwarded? {
      assert (inputs + more)[1..] == inputs[1..] + more;
      OperatorIgnoresLaterInput(inputs[1..], more);
    }
  }
}
